=== FILE: README.md ===
# less-themes-webpack-plugin, modelled in Dafny

The plugin builds one stylesheet per theme from a tree of theme options, and rewrites JavaScript
sources so that each imports its theme stylesheets. This project models the three parts of it
that decide what goes into those files:

- **The theme-tree flattener** (`src/processOptionsThemes.js`, module `ThemeTree`).
  - The options tree is a `Value`: a string, an array, an object whose entries are listed in
    `Object.keys` order, or any other value, of which only the truthiness matters.
  - `Events` lists, in order, every `saveFile` call the recursive `processBranch` makes. `Apply`
    is one call on the theme table, and `Run` is all of them.
  - The class `Flattener` is the closure itself. Its fields are the `themes` table and its key
    order. Its methods `SaveFile`, `SaveAll`, `ProcessBranch` and `ProcessEntries` update them
    in place and are proved to do what `Apply` and `Run` say.
  - The lemmas about `Run` state the following:
    - which themes exist, and which files each holds, in which order;
    - that the key list is exact and in `Object.keys` order;
    - when and how the function throws;
    - which calls the walk makes, given by a second, route-based reading of the tree.
- **The text and path helpers** (`src/utils.js`, module `Utils`):
  - `normalize` and `addLessExtension`;
  - the `@import` builder;
  - `removeLine`, `addLine` and `addJsImport`;
  - the `stripLessImports` scan, with its regular expression hand-coded and its `lastIndex`
    carried over;
  - `addLessImportsToTheme`, a loop that appends only lines not yet present;
  - `buildTempFiles`.
- **The per-source-file rewriter** (`src/JsFile.js`, module `JsFileModel`). The class `JsFile`
  works as follows:
  - The constructor finds the first `import './….less';` line. It records the line's offset
    and its resolved target, then deletes the line.
  - `context` fixes the directory of the theme stylesheets.
  - Each `addTheme` puts an `import "…";` line back at the fixed offset. It returns the theme
    stylesheet: a non-reference import of the original stylesheet, then one import per theme
    file.

Node's `path.resolve`, `relative`, `dirname` and `basename` stay abstract. They are fields of a
`NodePath.PathOps` record. `isAbsolute` and `extname` follow Node's POSIX rules, because
normalisation and the extension rule depend on them. `fs.existsSync` is a function parameter
(`Env.fileExists`), and `process.cwd()` is a parameter (`cwd`).

The two scans that use regular expressions work as follows:
- **`HAS_LESS_IMPORT_IN_JS` in utils.js** (`Utils.LessImportEnd`, `Utils.FindLessImport`).
  - The unescaped `.` matches any character but a line terminator.
  - The greedy `[^'"]+` gives characters back from the right, so there are two ways for a
    match to end.
  - The `/g` regex keeps its `lastIndex` across turns of the loop, and the text shrinks between
    turns. So the next search starts at the end of the previous match measured in the old
    text. After a stripped line, the first characters of the next line are skipped, as many
    as the match was long (`Utils.StripSkipsNextLine`); an import on that line is skipped
    when it starts within them, and found when it starts further in.
- **`HAS_IMPORT` and `IMPORT_FILE` in JsFile.js** (`JsFileModel.ImportEnd`,
  `JsFileModel.Capture`). `[^.]+` may run across line breaks up to the first `.`.

Line removal behaves as the code does when no `\n` follows the offset: `indexOf` returns -1, so
the text after the offset is the whole text again (`Utils.RemoveLineWithoutNewline`). The
`JsFile` constructor uses it that way.

Where the code and its intended behaviour differ, the model follows the code, with one
exception: `Utils.StripLessImports` and `Utils.StripFrom` remove a last-line import without `\n`
up to the end of the text, where `removeLine` as written duplicates the text before it. The loop
as written is modelled separately by `Utils.StripStep` and `Utils.StripIterate` (see Findings).
Elsewhere:
- An `addTheme` never moves the saved offset, so theme imports come out in the reverse of
  the order of the calls (`JsFileModel.SpliceTwice`).
- `processOptionsThemes.js` pushes plain path strings and never reads an `isReference` flag.
- `buildTempFiles` reads `file.path` and `file.isReference` of each file record.

## Model

| member | source | states |
|---|---|---|
| Strings.IndexOf | src/utils.js:65 | `indexOf` of one character: the first index at or after `from` that holds it, and -1 exactly when there is none |
| Strings.ForwardSlashes | src/utils.js:8-9 | `replace(/\\/g, '/')` keeps the length, turns every backslash into `/`, leaves no backslash and leaves every other character in place |
| Strings.IncludesAppend | src/utils.js:55 | an occurrence found by `includes` survives appending text |
| Strings.IncludesSuffix | src/utils.js:55-57 | text just appended is included |
| Strings.SplitConcatLines | src/utils.js:90-92 | whole lines joined together split back into the same lines |
| NodePath.Extname | src/utils.js:19 | `extname` is empty or starts with its only `.`, and it holds no `/` |
| NodePath.ExtnameAppendDotted | src/utils.js:22 | appending `.less` to a name not ending in `/` makes `.less` its extension |
| NodePath.ExtnameExtendDot | src/utils.js:25 | appending `less` to a name whose extension is a bare `.` makes `.less` its extension |
| NodePath.ExtnameDotFile | src/utils.js:19-21 | a dot-file such as `.less` has no extension |
| Utils.Normalize | src/utils.js:7-16 | the result has no `\`; it starts with `.` or `/`; it is the relative path unchanged exactly when that already starts with `.` or `/`, and otherwise the path with `./` in front |
| Utils.AddLessExtension | src/utils.js:18-29 | the name is a prefix of the result; a name with no extension gains `.less`, one ending in a bare `.` gains `less`, and any other extension is kept |
| Utils.AddLessExtensionGivesLess | src/utils.js:18-29 | a name without an extension, or ending in a bare `.`, becomes a `.less` file |
| Utils.AddLessExtensionIdempotent | src/utils.js:18-29 | applying the extension rule twice equals applying it once, for every non-empty name not ending in `/` |
| Utils.AddLessExtensionEmptyName | src/utils.js:18-29 | the empty name is the exception: it becomes `.less`, which gains a second `.less` |
| Utils.BuildLessImportParses | src/utils.js:31-35 | the `@import` line reads back as the reference flag and the normalised path, and it is one line when the path has no `\n` |
| Utils.ImportTextParses | src/utils.js:34 | `(less)` and `(less, reference)` lines are told apart, and the quoted path reads back |
| Utils.RemoveLineKeepsPrefix | src/utils.js:63-66 | removing a line never changes the text before the offset |
| Utils.AddLine | src/utils.js:68-70 | the result is the text before the offset, then the line, then the rest |
| Utils.RemoveAddLine | src/utils.js:63-70 | removing a line just inserted at an offset restores the text |
| Utils.RemoveLineCutsOneLine | src/utils.js:63-66 | when a `\n` follows the offset, exactly the one line from the offset through that `\n` is removed |
| Utils.RemoveLineWithoutNewline | src/utils.js:63-66 | with no `\n` after the offset, the prefix is followed by the whole text again, which makes the text longer |
| Utils.AddJsImport | src/utils.js:72-78 | for any offset: within the text, the single-quoted import line goes in at the offset with the rest after it, and `removeLine` at that offset undoes it; past the end, `slice` clamps and the line is appended |
| Utils.JsImportLineIsLine | src/utils.js:75 | the single-quoted import is one line when the path has no `\n` |
| Utils.LessImportEnd | src/utils.js:3 | a match starts with `import ` and a quote, and ends with `less`, a quote and `;` |
| Utils.FindLessImport | src/utils.js:41 | `exec` from `lastIndex` finds a match at or after it, inside the text |
| Utils.FindLessImportLeftmost | src/utils.js:41 | the match found is the leftmost one after `lastIndex`, and finding none means there is none |
| Utils.FindLessImportAt | src/utils.js:41 | a match with none before it is the one `exec` finds |
| Utils.StripLessImportsAsWrittenNeverHalts | src/utils.js:41-44 | on 16 blanks followed by a last-line `import 'a.less';`, the loop as written still finds a match after any number of turns |
| Utils.StripStepOnBlanks | src/utils.js:41-44 | one turn on blanks plus that import doubles the blanks, moves `lastIndex` past the import and records `./a.less` |
| Utils.StripStepRepeats | src/utils.js:41-44 | from any such state the next turn finds the import again and records the same path |
| Utils.LoopKeepsFinding | src/utils.js:41-44 | from such a state, every number of turns leads to such a state |
| Utils.IterateKeeps | src/utils.js:41 | a property each turn keeps and that lets each turn find a match holds after any number of turns |
| Utils.RemoveImportLine | src/utils.js:63-66 | the intended removal keeps the prefix and always shortens the text |
| Utils.RemoveImportLineCuts | src/utils.js:63-66 | the intended removal takes out exactly one line: through the next `\n` when there is one, and otherwise everything from the offset to the end, which then holds no `\n` |
| Utils.RemoveImportLineSplit | src/utils.js:63-66 | the intended removal leaves the text before the offset followed by the text after the offset's line |
| Utils.StripLessImports | src/utils.js:37-47 | departs from the code on a last-line import without `\n`, which it removes up to the end of the text (see Findings); otherwise as the code: the loop computes `StripFrom`, and it ends; there are no more paths than removed characters; no path is found exactly when there is no match, and then the text is unchanged |
| Utils.StripFromGrowsPaths | src/utils.js:41-44 | paths are only appended, one per removed line |
| Utils.StripFromKeepsPrefix | src/utils.js:41-44 | the text before `lastIndex` is never touched |
| Utils.StripFromFindsNothing | src/utils.js:37-47 | the path list is unchanged exactly when no import is found, and then the text is unchanged too |
| Utils.StripFirstImport | src/utils.js:41-43 | the next path recorded is that of the leftmost import, and the text before it survives |
| Utils.StripFirstImportLine | src/utils.js:41-44 | one turn: the leftmost import from `lastIndex` is recorded, its line is cut out, the text after that line is kept, and the scan goes on from the end of the match |
| Utils.StripKeepsAfterLine | src/utils.js:41-44 | in the final text, the first import's offset holds what followed its line, for as many characters as the match was long, instead of the import's line |
| Utils.StripFromAfter | src/utils.js:41-44 | text lying wholly before `lastIndex` is kept in place, however many turns follow |
| Utils.StripRemovesLastLineImport | src/utils.js:41-44 | with the intended removal, a last-line import without `\n` after any prefix holding no `i` is removed and its path recorded, and the loop ends |
| Utils.StripAsWrittenKeepsLastLineImport | src/utils.js:41-44 | as written, after a prefix shorter than the import and holding no `i`: the first turn records the path but leaves the prefix twice, then the import; the second turn finds nothing, so the import stays in the result |
| Utils.StripAsWrittenKeepsImportAfterShortLine | src/utils.js:41-44 | the concrete case `x;\n` then `import 'a.less';`: the result is `x;\nx;\n` followed by the import, and `lastIndex` 19 is past it |
| Utils.StripSkipsNextLine | src/utils.js:41-44 | after an import on the first line, the carried-over `lastIndex` 16 skips the first 16 characters of the next line; with no `i` after those, the result is the next line onward with one path, and the loop as written stops after that same turn |
| Utils.StripSkipsImportOnNextLine | src/utils.js:41-44 | the concrete case of two import lines: only the first is stripped and recorded, the second stays |
| Utils.AddImport | src/utils.js:53-57 | one turn keeps the text as a prefix, and afterwards the text includes the line |
| Utils.AddLessImportsToTheme | src/utils.js:49-61 | the loop computes `AddImports`; the input is a prefix of the result; the result includes the line of every path; a path whose line the input already includes contributes nothing, the result being that of the other paths |
| Utils.AddImportsSkipsPresent | src/utils.js:55-57 | a line already included is never appended again: dropping every path with that line gives the same result |
| Utils.AddImportsGrows | src/utils.js:49-61 | the input text is a prefix of the result |
| Utils.AddImportsIncludesAll | src/utils.js:49-61 | the result includes the `@import` line of every path |
| Utils.AddImportsAllPresent | src/utils.js:52-58 | when every line is already present, the text is unchanged (so empty paths change nothing) |
| Utils.AddImportsIdempotent | src/utils.js:49-61 | applying it again with the same paths changes nothing |
| Utils.BuildTempFiles | src/utils.js:80-95 | one record per theme, in key order, at `resolve(dir, name + '.less')`, in its `dirname`, keeping its files; when no normalised path holds `\n`, its content reads back as one `@import` line per file, in order, with the file's reference flag and its path normalised against `dir` |
| Utils.TempFileContentReadsBack | src/utils.js:90-92 | the content has exactly one `@import` line per file, in order, each a reference import exactly when the file says so, with the path normalised against `dir` |
| Utils.ParseLines | src/utils.js:92 | joined lines are read back one per line |
| JsFileModel.Normalize | src/JsFile.js:10-18 | no `\` is left; the result starts with `.` or `/`; `./` is added exactly when the text does not already start with `.` or `/` |
| JsFileModel.NormalizeAgrees | src/JsFile.js:10-18 | the two-argument normaliser of utils.js is this one applied to `relative(dir, path)` |
| JsFileModel.BuildLessImportParses | src/JsFile.js:20-23 | `notReference` gives the opposite flag of the utils.js builder, and otherwise the same line |
| JsFileModel.ImportEnd | src/JsFile.js:7 | a match starts with `import '` and `/`, and ends with `less';` |
| JsFileModel.FindImport | src/JsFile.js:31 | `match` finds a match at or after the start, inside the text |
| JsFileModel.FindImportLeftmost | src/JsFile.js:31 | without the `g` flag only the leftmost match is found, and none when there is none |
| JsFileModel.CaptureAt | src/JsFile.js:8 | the captured target is non-empty and holds no quote |
| JsFileModel.ImportEndPlain | src/JsFile.js:7 | on `import './<x>.less';` with `<x>` free of `.`, the match is exactly that text |
| JsFileModel.CapturePlain | src/JsFile.js:34 | on that text IMPORT_FILE captures `<x>.less` |
| JsFileModel.LocatePlain | src/JsFile.js:31-35 | when it is the first match, that import is located with target `<x>.less` |
| JsFileModel.LocatePlainImport | src/JsFile.js:31-35 | text with a plain import after a prefix holding no match locates it at the prefix's length with target `<name>.less` |
| JsFileModel.SpliceTwice | src/JsFile.js:48-52 | two lines put at the fixed offset come out in reverse order, the later one above |
| JsFileModel.JsImportLineIsLine | src/JsFile.js:55 | the double-quoted import is one line when the path has no `\n` |
| JsFileModel.EntryContentReadsBack | src/JsFile.js:58-66 | the entry content has `1 + |files|` lines: the original stylesheet as a non-reference import, then each file in order, a reference import unless the file is an entry point |
| JsFileModel.JsFile.constructor | src/JsFile.js:26-46 | with no import, nothing is recorded and the content is the input; with one, its offset and resolved target are recorded and its line is removed |
| JsFileModel.Open | src/JsFile.js:26-39 | the constructor throws exactly when IMPORT_FILE cannot read the found import; otherwise `hasLess` holds exactly when an import was found, and `originalLessFilePath` is its resolved target |
| JsFileModel.JsFile.Context | src/JsFile.js:76-79 | the stylesheet directory is `resolve(tempDir, relative(context, dir))`, and the content is kept |
| JsFileModel.JsFile.AddLine | src/JsFile.js:48-52 | the line goes in at the fixed offset, and without an offset between two copies of the text |
| JsFileModel.JsFile.AddJsImport | src/JsFile.js:54-56 | the double-quoted import of the normalised relative path goes in at the fixed offset |
| JsFileModel.JsFile.AddTheme | src/JsFile.js:81-91 | it throws without `context`, leaving the text unchanged; otherwise the import of `<tempFileDir>/<base>.<name>.less` goes in at the offset; without a found import it then throws; otherwise it returns that directory, that path and the entry content |
| ThemeTree.Lookup | src/processOptionsThemes.js:40-45 | reading a key finds an entry under that key, and finds nothing only when there is none |
| ThemeTree.InsertKey | src/processOptionsThemes.js:14-16 | creating a theme adds exactly its name to the keys; a name that is not an array index goes last |
| ThemeTree.Flattener.constructor | src/processOptionsThemes.js:11 | the table starts empty |
| ThemeTree.Flattener.SaveFile | src/processOptionsThemes.js:13-30 | the new table, or the error thrown, is what `Apply` gives for the call |
| ThemeTree.Flattener.SaveAll | src/processOptionsThemes.js:34-37 | the loop over the file names leaves what `Run` gives for their calls, and stops at the first error |
| ThemeTree.Flattener.ProcessBranch | src/processOptionsThemes.js:32-60 | the recursion leaves what `Run` gives for the calls `Events` lists |
| ThemeTree.Flattener.ProcessEntries | src/processOptionsThemes.js:50-58 | the loop over the keys leaves what `Run` gives for the calls of every round |
| ThemeTree.ProcessOptionsThemes | src/processOptionsThemes.js:10-65 | the function returns the table and its keys, or throws, exactly as `Flatten` says |
| ThemeTree.InsertKeyMembers | src/processOptionsThemes.js:14-16 | the keys after an insertion are the old keys plus the new name |
| ThemeTree.InsertKeyOrdered | src/processOptionsThemes.js:14-16 | inserting a new name keeps the keys distinct and array indices first, in order |
| ThemeTree.ApplyValid | src/processOptionsThemes.js:13-30 | a call keeps keys and properties in step, distinct, ordered, and free of `Object.prototype` names |
| ThemeTree.RunValid | src/processOptionsThemes.js:32-60 | all the calls keep the table valid |
| ThemeTree.FlattenKeys | src/processOptionsThemes.js:64 | the second result lists exactly the themes of the first, each once, array indices first |
| ThemeTree.ApplyFiles | src/processOptionsThemes.js:13-30 | a call creates its theme unless `Object.prototype` answers for the name, and it appends the resolved file of a non-empty string name |
| ThemeTree.RunFiles | src/processOptionsThemes.js:14-28 | after the calls, a theme exists exactly when some call names it, and its files are the pushed ones, in order |
| ThemeTree.RunOrder | src/processOptionsThemes.js:14-16 | without array-index names, the keys are the themes in the order they were first created |
| ThemeTree.ApplyOrder | src/processOptionsThemes.js:14-16 | a call that creates a theme with an ordinary name appends that name |
| ThemeTree.FlattenThemes | src/processOptionsThemes.js:10-65 | the table has a theme for every name a call receives, holding the files pushed for it in order; without array-index names the keys follow first creation |
| ThemeTree.FirstFailure | src/processOptionsThemes.js:24-26 | it is none exactly when no call fails, and otherwise the failure of the first failing call |
| ThemeTree.ApplyFails | src/processOptionsThemes.js:13-30 | on a valid table a call throws exactly as `Fails` says |
| ThemeTree.RunFails | src/processOptionsThemes.js:32-60 | the calls throw exactly when one fails, and they throw the first failure |
| ThemeTree.FlattenFails | src/processOptionsThemes.js:24-26 | the function throws exactly the first failing call's error; with the check skipped, no error is a missing file |
| ThemeTree.SkipIgnoresFileSystem | src/processOptionsThemes.js:24 | with the check skipped, what `fs.existsSync` would answer changes nothing |
| ThemeTree.EmptyTree | src/processOptionsThemes.js:10-64 | `{}` yields an empty table and no names |
| ThemeTree.NothingSaved | src/processOptionsThemes.js:33-39 | an empty array with nothing inherited, a value that is no string, array or object, and an object with its own `constructor` make no call |
| ThemeTree.EmptyFileName | src/processOptionsThemes.js:13-18 | an empty file name creates its theme with no file |
| ThemeTree.EventsRoute | src/processOptionsThemes.js:32-60 | every call the walk makes is reached by a route of keys that were not consumed |
| ThemeTree.RouteEvents | src/processOptionsThemes.js:32-60 | every call a route reaches is made by the walk |
| ThemeTree.EventsReach | src/processOptionsThemes.js:40-55 | a call happens exactly when a route ends at a file name or list; it saves an inherited file or a leaf name, in the directory the route's `path`s lead to, under the `.`-join of the keys |
| ThemeTree.LeafRun | src/processOptionsThemes.js:33-58 | the calls of one leaf form one contiguous run of the walk: the files inherited along its route, which begin with the files the walk started with, then the leaf's own names, all in the route's directory and under its dotted name |
| ThemeTree.SingleEntry | src/processOptionsThemes.js:50-58 | a top-level key names its theme with no leading dot |
| ThemeTree.PathIncludeBranch | src/processOptionsThemes.js:40-48 | `path` and `include` are consumed, never become name parts, move the directory and extend the inherited files |
| ThemeTree.TwoEntries | src/processOptionsThemes.js:50-58 | siblings are walked in key order with the parent's directory and files, so neither sees the other's `path` or `include` |
| ThemeTree.CaseEvents | src/processOptionsThemes.js:32-60 | in a nested case, both leaves inherit the outer include, resolved in the outer `path`, and an empty array still saves the inherited file |
| ThemeTree.NestedIncludeCase | src/processOptionsThemes.js:10-65 | that case yields two dotted themes in walk order, the include first in each |
| ThemeTree.ApplyNewTheme | src/processOptionsThemes.js:14-28 | a new theme is created holding the resolved file and is listed last |
| ThemeTree.ApplyKnownTheme | src/processOptionsThemes.js:18-28 | an existing theme gets the resolved file appended, and the keys stay |
| ThemeTree.ChildNames | src/processOptionsThemes.js:55 | children of a non-empty name differ when their keys do, and they are neither array indices nor `Object.prototype` names |
| ThemeTree.DottedName | src/processOptionsThemes.js:14 | a name with a `.` is neither an array index nor an `Object.prototype` name |

## Left out

- `src/Loader.js`, `src/Plugin.js` and the webpack configuration files are not part of this model. This covers the webpack hooks, writing the generated files, and entry-point discovery.
- Node's `path.resolve`, `relative`, `dirname` and `basename` are abstract functions. Windows drives and separators are not modelled; `isAbsolute` and `extname` follow the POSIX rules only.
- `fs.existsSync` is a function parameter and `process.cwd()` is a parameter. Neither is read from a real system.
- `delete data.path` and `delete data.include` are not modelled as changes to the input. The tree is immutable, and the consumed keys are skipped when its keys are listed. A second run on the same mutated object is therefore not modelled, and neither is the case of one object reachable twice in one tree (the same object under two keys): the code deletes its `path` and `include` on the first visit, so the second visit no longer sees them, while the model applies them on both.
- `buildTempFiles` writes `location` and `dir` into the input theme records. The model returns them only in the new records, not as changes to the input.
- Object entries are given in the order `Object.keys` lists them. Reordering integer-like keys of the options tree is left to whoever builds the `Value`; the order of the theme table's own keys is modelled (`InsertKey`).
- Values other than strings, arrays and plain objects are reduced to their truthiness. Getters, proxies, symbol keys and objects with other prototypes are not modelled, and an object counts as plain unless it has its own `constructor` key.
- The thrown errors are reduced to their kind: the missing path, or a `TypeError`. The message text is not modelled.
- Only the regular expressions of the three files are modelled, as hand-written scanners. There is no general regular-expression engine.
- `Utils.CapturedPath`: the capture of utils.js's IMPORT_FILE on a found match is taken to be the text between the opening quote and the quote before `;`. No separate scan for the capture is written out.
- `JsFileModel.JsFile.constructor`: `isEntryPoint` starts `false` where JavaScript leaves it `undefined`. Both are falsy, and only its truthiness is read.
- `JsFileModel.JsFile.AddTheme`: the errors thrown without `context` or without a found import are returned as `Err`, with an explanatory string.
- `Utils.StripLessImports`: models the loop with the corrected line removal, not `removeLine` as written. The two differ only on a last-line import without `\n`; the code's behaviour there is modelled separately by `StripStep`/`StripIterate` and listed under Findings.
- `Utils.StripLessImports`, `Utils.StripFrom` and `Utils.StripStep`: offsets count characters, where JavaScript's `lastIndex`, `match.index`, `indexOf` and `slice` count UTF-16 code units. On text holding characters beyond U+FFFF, which take two code units each, the carried-over `lastIndex` lands elsewhere. So the skip into the next line (`StripSkipsNextLine`) and the threshold between the two Findings rows (an offset shorter than the import, or at least as long) differ from the code there; the model matches it on text without such characters.
- `ThemeTree.FlattenKeys`: the array-index keys are stated to be non-decreasing (`<=`), not strictly increasing, although distinct keys make them strictly increasing.
- The `isReference` objects expected by the processOptionsThemes tests are not modelled: the code pushes plain path strings. For `buildTempFiles`, the model takes `{path, isReference}` records, which is what the code reads.

## Findings

| source | as written | input that shows it | evidently intended | confidence | as-written member | corrected member |
|---|---|---|---|---|---|---|
| src/utils.js:41-44 | The loop does not end when an import is the last line and has no `\n`, and its offset is at least as long as the import (JavaScript counts both in UTF-16 code units, the model in characters). `removeLine` gets -1 from `indexOf` and returns the prefix followed by the whole text, so the same import reappears further on, where the carried-over `lastIndex` finds it again. The model's strings are unbounded, so there the loop never ends; in JavaScript the prefix doubles each turn until building the string throws a `RangeError` for an invalid string length | 16 spaces followed by `import 'a.less';`, with no newline | the last line is removed up to the end of the text, and the loop ends | not executed | Utils.StripLessImportsAsWrittenNeverHalts | Utils.StripLessImports |
| src/utils.js:41-44 | When an import is the last line, has no `\n`, and its offset is shorter than the import (in UTF-16 code units in JavaScript, in characters in the model), the duplicated prefix moves the import past the carried-over `lastIndex`; the next search finds nothing, so the import stays in the returned text although its path was recorded | `x;\n` followed by `import 'a.less';`, with no newline | the import line is removed and only `x;\n` is left | not executed | Utils.StripAsWrittenKeepsImportAfterShortLine | Utils.StripRemovesLastLineImport |

=== FILE: js_file.dfy ===
/**
 * `src/JsFile.js`: one JavaScript source file being rewritten. The constructor finds the first
 * `import './….less';` line, remembers where it was and which stylesheet it named, and deletes
 * it; `context` fixes the directory of the generated stylesheets; every `addTheme` puts an
 * `import "…";` line for a theme stylesheet back at the remembered offset and returns that
 * stylesheet's content.
 */
module JsFileModel {
  import opened Wrappers
  import opened Strings
  import opened NodePath
  import Utils

  // ---------------------------------------------------------------------------------------
  // Module-level helpers

  /** `normalize(string)` of JsFile.js: forward slashes, and a `./` prefix unless the text
      starts with `.` or is absolute. */
  function Normalize(s: string): (r: string)
    ensures '\\' !in r
    ensures |r| > 0 && (r[0] == '.' || r[0] == '/')
    ensures r == ForwardSlashes(s) || r == "./" + ForwardSlashes(s)
    ensures r == ForwardSlashes(s) <==> |s| > 0 && (ForwardSlashes(s)[0] == '.' || ForwardSlashes(s)[0] == '/')
  {
    var t := ForwardSlashes(s);
    if (|t| == 0 || t[0] != '.') && !IsAbsolute(t) then "./" + t else t
  }

  /** The two-argument normaliser of utils.js is this one applied to `relative(dir, filePath)`. */
  lemma NormalizeAgrees(ops: PathOps, dir: string, filePath: string)
    ensures Utils.Normalize(ops, dir, filePath) == Normalize(ops.relative(dir, filePath))
  {
  }

  /** `buildLessImport(path, notReference = false)` of JsFile.js: a reference import unless
      `notReference`, the opposite default of the utils.js builder. */
  function BuildLessImport(path: string, notReference: bool): string {
    Utils.ImportText(!notReference, Normalize(path))
  }

  /** The line reads back with the reference flag `!notReference` and the normalised path, and it
      is the same line the utils.js builder writes with the flag flipped. */
  lemma BuildLessImportParses(ops: PathOps, dir: string, path: string, notReference: bool)
    ensures Utils.ParseLessImport(BuildLessImport(ops.relative(dir, path), notReference))
      == Some((!notReference, Utils.Normalize(ops, dir, path)))
    ensures BuildLessImport(ops.relative(dir, path), notReference) == Utils.BuildLessImport(ops, dir, path, !notReference)
  {
    Utils.ImportTextParses(!notReference, Normalize(ops.relative(dir, path)));
  }

  // ---------------------------------------------------------------------------------------
  // The scan of HAS_IMPORT = /import '.\/[^.]+.less';/

  /** The largest `j` in `[lo, hi]` where the unescaped `.` can take `s[j]` (no line terminator)
      with `less';` right after it; the match then ends at `j + 7`. */
  function LastFit(s: string, lo: nat, hi: int): (r: Option<nat>)
    requires hi < |s|
    ensures r.Some? ==> lo + 7 <= r.value <= hi + 7 && r.value <= |s|
    ensures r.Some? ==> !IsLineTerminator(s[r.value - 7]) && Utils.Lit(s, r.value - 6, "less';")
    decreases hi - lo + 1
  {
    if hi < lo then None
    else if !IsLineTerminator(s[hi]) && Utils.Lit(s, hi + 1, "less';") then
      Utils.LitIsSlice(s, hi + 1, "less';");
      Some(hi + 7)
    else LastFit(s, lo, hi - 1)
  }

  /** Where a match of HAS_IMPORT starting at `p` ends, if there is one. After `import '`, any
      character but a line terminator and `/`, the class `[^.]+` runs to the first `.` at `d`
      (line breaks included); the greedy engine first lets the `.` of the pattern take that dot,
      then gives characters back one by one. */
  function ImportEnd(s: string, p: nat): (r: Option<nat>)
    requires p <= |s|
    ensures r.Some? ==> p + 18 <= r.value <= |s|
    ensures r.Some? ==> Utils.Lit(s, p, "import '") && s[p + 9] == '/' && Utils.Lit(s, r.value - 6, "less';")
  {
    if p + 10 > |s| || !Utils.Lit(s, p, "import '") || IsLineTerminator(s[p + 8]) || s[p + 9] != '/' then None
    else
      var d := IndexOf(s, '.', p + 10);
      var limit := if d == -1 then |s| else d;
      if limit < p + 11 then None
      else if d != -1 && Utils.Lit(s, d + 1, "less';") then
        Utils.LitIsSlice(s, d + 1, "less';");
        Some(d + 7)
      else LastFit(s, p + 11, limit - 1)
  }

  /** `content.match(HAS_IMPORT)` (no `g` flag): the leftmost match at or after `from`. */
  function FindImport(s: string, from: nat): (r: Option<Utils.Found>)
    ensures r.Some? ==> from <= r.value.index && r.value.index + 18 <= r.value.end <= |s|
    decreases |s| - from
  {
    if from > |s| then None
    else match ImportEnd(s, from)
      case Some(end) => Some(Utils.Found(from, end))
      case None => if from == |s| then None else FindImport(s, from + 1)
  }

  /** What `FindImport` returns is a match, and no match starts before it; finding nothing means
      no match starts anywhere after `from`. */
  lemma {:induction false} FindImportLeftmost(s: string, from: nat)
    ensures var r := FindImport(s, from);
      && (r.Some? ==> ImportEnd(s, r.value.index) == Some(r.value.end))
      && (r.Some? ==> forall q :: from <= q < r.value.index ==> ImportEnd(s, q).None?)
      && (r.None? ==> forall q :: from <= q <= |s| ==> ImportEnd(s, q).None?)
    decreases |s| - from
  {
    if from < |s| && ImportEnd(s, from).None? {
      FindImportLeftmost(s, from + 1);
      var r := FindImport(s, from + 1);
      assert FindImport(s, from) == r;
      if r.Some? {
        forall q | from <= q < r.value.index ensures ImportEnd(s, q).None? {
          if q == from {
          }
        }
      } else {
        forall q | from <= q <= |s| ensures ImportEnd(s, q).None? {
          if q == from {
          }
        }
      }
    }
  }

  // ---------------------------------------------------------------------------------------
  // The capture of IMPORT_FILE = /'.\/([^']+)';/

  /** The capture of IMPORT_FILE if a match starts at `i`: a quote, any character but a line
      terminator, `/`, then `[^']+` up to the next quote, which must be followed by `;`. */
  function CaptureAt(m: string, i: nat): (r: Option<string>)
    requires i <= |m|
    ensures r.Some? ==> |r.value| > 0 && '\'' !in r.value
  {
    if i + 3 > |m| || m[i] != '\'' || IsLineTerminator(m[i + 1]) || m[i + 2] != '/' then None
    else
      var q := IndexOf(m, '\'', i + 3);
      if q == -1 || q < i + 4 || q + 2 > |m| || m[q + 1] != ';' then None
      else
        Some(m[i + 3..q])
  }

  /** `m.match(IMPORT_FILE)[1]`: the capture of the leftmost match, or `None` where JavaScript
      would read `[1]` of `null` and throw. */
  function Capture(m: string, i: nat): Option<string>
    decreases |m| - i
  {
    if i > |m| then None
    else match CaptureAt(m, i)
      case Some(c) => Some(c)
      case None => if i == |m| then None else Capture(m, i + 1)
  }

  /** The outcome of the constructor's search: no import, an import at `index` naming `target`,
      or a match whose target IMPORT_FILE cannot read (the constructor throws). */
  datatype Located = NoImport | Import(index: nat, target: string) | Unreadable

  function Locate(content: string): Located {
    match FindImport(content, 0)
    case None => NoImport
    case Some(m) =>
      match Capture(content[m.index..m.end], 0)
      case None => Unreadable
      case Some(t) => Import(m.index, t)
  }

  /** HAS_IMPORT on `import './<x>.less';` at `p`, where `<x>` has `n > 0` characters and no `.`:
      the match is exactly that text. */
  lemma ImportEndPlain(s: string, p: nat, n: nat)
    requires n > 0 && p + n + 17 <= |s|
    requires Utils.Lit(s, p, "import './") && Utils.Lit(s, p + 10 + n, ".less';")
    requires forall k :: p + 10 <= k < p + 10 + n ==> s[k] != '.'
    ensures ImportEnd(s, p) == Some(p + n + 17)
  {
    var d := p + 10 + n;
    assert Utils.Lit(s, p, "import '") && s[p + 8] == '.' && s[p + 9] == '/' by {
      Utils.LitIsSlice(s, p, "import './");
      assert s[p..p + 8] == s[p..p + 10][..8];
      Utils.LitIsSlice(s, p, "import '");
      assert s[p + 8] == s[p..p + 10][8] && s[p + 9] == s[p..p + 10][9];
    }
    assert s[d] == '.' && Utils.Lit(s, d + 1, "less';") by {
      Utils.LitIsSlice(s, d, ".less';");
      assert s[d] == s[d..d + 7][0];
      assert s[d + 1..d + 7] == s[d..d + 7][1..];
      Utils.LitIsSlice(s, d + 1, "less';");
    }
    assert IndexOf(s, '.', p + 10) == d;
  }

  /** IMPORT_FILE on the text `import './<x>.less';`, where `<x>` has `n > 0` characters and no
      quote, captures `<x>.less`. */
  lemma CapturePlain(m: string, n: nat)
    requires n > 0 && |m| == n + 17
    requires Utils.Lit(m, 0, "import './") && Utils.Lit(m, 10 + n, ".less';")
    requires forall k :: 10 <= k < 10 + n ==> m[k] != '\''
    ensures Capture(m, 0) == Some(m[10..n + 15])
  {
    var q := n + 15;
    Utils.LitIsSlice(m, 0, "import './");
    Utils.LitIsSlice(m, 10 + n, ".less';");
    forall i | 0 <= i < 7 ensures CaptureAt(m, i).None? {
      assert m[i] == m[0..10][i];
    }
    assert m[7] == m[0..10][7] && m[8] == m[0..10][8] && m[9] == m[0..10][9];
    assert m[q] == m[10 + n..|m|][5] && m[q + 1] == m[10 + n..|m|][6];
    forall k | 10 + n <= k < q ensures m[k] != '\'' {
      assert m[k] == m[10 + n..|m|][k - 10 - n];
    }
    assert IndexOf(m, '\'', 10) == q;
    CaptureFrom(m, 0, 7);
  }

  /** A text whose first HAS_IMPORT match is `import './<x>.less';` at `p` (`<x>` of `n > 0`
      characters, neither `.` nor quote) locates that import, with target `<x>.less`. */
  lemma LocatePlain(s: string, p: nat, n: nat)
    requires n > 0 && p + n + 17 <= |s|
    requires Utils.Lit(s, p, "import './") && Utils.Lit(s, p + 10 + n, ".less';")
    requires forall k :: p + 10 <= k < p + 10 + n ==> s[k] != '.' && s[k] != '\''
    requires forall q :: 0 <= q < p ==> ImportEnd(s, q).None?
    ensures Locate(s) == Import(p, s[p + 10..p + n + 15])
  {
    assert FindImport(s, 0) == Some(Utils.Found(p, p + n + 17)) by {
      ImportEndPlain(s, p, n);
      FindImportAt(s, 0, p);
    }
    assert Capture(s[p..p + n + 17], 0) == Some(s[p + 10..p + n + 15]) by {
      CaptureInText(s, p, n);
    }
    LocateFound(s, Utils.Found(p, p + n + 17), s[p + 10..p + n + 15]);
  }

  /** `Locate` once the match and its capture are known. */
  lemma LocateFound(s: string, m: Utils.Found, target: string)
    requires m.index <= m.end <= |s| && FindImport(s, 0) == Some(m)
    requires Capture(s[m.index..m.end], 0) == Some(target)
    ensures Locate(s) == Import(m.index, target)
  {
  }

  /** IMPORT_FILE on the text of a plain import inside a longer text captures `<x>.less`. */
  lemma CaptureInText(s: string, p: nat, n: nat)
    requires n > 0 && p + n + 17 <= |s|
    requires Utils.Lit(s, p, "import './") && Utils.Lit(s, p + 10 + n, ".less';")
    requires forall k :: p + 10 <= k < p + 10 + n ==> s[k] != '\''
    ensures Capture(s[p..p + n + 17], 0) == Some(s[p + 10..p + n + 15])
  {
    var m := s[p..p + n + 17];
    LitInSlice(s, p, n + 17, 0, "import './");
    LitInSlice(s, p, n + 17, 10 + n, ".less';");
    forall k | 10 <= k < 10 + n ensures m[k] != '\'' {
      assert m[k] == s[p + k];
    }
    CapturePlain(m, n);
    var a, b := m[10..n + 15], s[p + 10..p + n + 15];
    assert a == b by {
      forall k | 0 <= k < n + 5 ensures a[k] == b[k] {
        assert m[10 + k] == s[p + 10 + k];
      }
    }
  }

  /** A literal inside a slice is a literal of the slice. */
  lemma LitInSlice(s: string, p: nat, len: nat, j: nat, w: string)
    requires p + len <= |s| && j + |w| <= len && Utils.Lit(s, p + j, w)
    ensures Utils.Lit(s[p..p + len], j, w)
  {
    Utils.LitIsSlice(s, p + j, w);
    Utils.LitIsSlice(s[p..p + len], j, w);
    var t := s[p..p + len];
    var a, b := t[j..j + |w|], s[p + j..p + j + |w|];
    forall k | 0 <= k < |w| ensures a[k] == b[k] {
      assert t[j + k] == s[p + j + k];
    }
    assert a == b;
  }

  /** The usual case: `pre`, then `import './<name>.less';`, then `post`, where `<name>` is
      non-empty without `.` or quote and no match starts inside `pre`. The import is found where
      it starts and its target is `<name>.less`. */
  lemma LocatePlainImport(pre: string, name: string, post: string)
    requires |name| > 0 && forall k :: 0 <= k < |name| ==> name[k] != '.' && name[k] != '\''
    requires forall q :: 0 <= q < |pre| ==> ImportEnd(pre + "import './" + name + ".less';" + post, q).None?
    ensures Locate(pre + "import './" + name + ".less';" + post) == Import(|pre|, name + ".less")
  {
    var s := pre + "import './" + name + ".less';" + post;
    var p, n := |pre|, |name|;
    assert Locate(s) == Import(p, s[p + 10..p + n + 15]) by {
      PlainImportParts(pre, name, post);
      LocatePlain(s, p, n);
    }
    assert s[p + 10..p + n + 15] == name + ".less";
  }

  /** The parts of `pre + "import './" + name + ".less';" + post` that `LocatePlain` needs. */
  lemma PlainImportParts(pre: string, name: string, post: string)
    requires |name| > 0 && forall k :: 0 <= k < |name| ==> name[k] != '.' && name[k] != '\''
    ensures var s := pre + "import './" + name + ".less';" + post;
      var p, n := |pre|, |name|;
      && p + n + 17 <= |s|
      && Utils.Lit(s, p, "import './") && Utils.Lit(s, p + 10 + n, ".less';")
      && forall k :: p + 10 <= k < p + 10 + n ==> s[k] != '.' && s[k] != '\''
  {
    var s := pre + "import './" + name + ".less';" + post;
    var p, n := |pre|, |name|;
    assert Utils.Lit(s, p, "import './") by {
      assert s[p..p + 10] == "import './";
      Utils.LitIsSlice(s, p, "import './");
    }
    assert Utils.Lit(s, p + 10 + n, ".less';") by {
      assert s[p + 10 + n..p + n + 17] == ".less';";
      Utils.LitIsSlice(s, p + 10 + n, ".less';");
    }
    forall k | p + 10 <= k < p + 10 + n ensures s[k] != '.' && s[k] != '\'' {
      assert s[k] == name[k - p - 10];
    }
  }

  /** Where the first match starts, `FindImport` finds it. */
  lemma {:induction false} FindImportAt(s: string, from: nat, p: nat)
    requires from <= p <= |s| && ImportEnd(s, p).Some?
    requires forall q :: from <= q < p ==> ImportEnd(s, q).None?
    ensures FindImport(s, from) == Some(Utils.Found(p, ImportEnd(s, p).value))
    decreases p - from
  {
    if from < p {
      assert ImportEnd(s, from).None?;
      assert FindImport(s, from) == FindImport(s, from + 1);
      FindImportAt(s, from + 1, p);
    }
  }

  /** Where the first IMPORT_FILE match starts, `Capture` takes its capture. */
  lemma {:induction false} CaptureFrom(m: string, from: nat, i: nat)
    requires from <= i <= |m| && CaptureAt(m, i).Some?
    requires forall j :: from <= j < i ==> CaptureAt(m, j).None?
    ensures Capture(m, from) == CaptureAt(m, i)
    decreases i - from
  {
    if from < i {
      CaptureFrom(m, from + 1, i);
    }
  }

  // ---------------------------------------------------------------------------------------
  // Lines at the import offset

  /** `content.slice(0, index) + line + content.slice(index)` for the saved offset; when there
      is none (`undefined`), both slices are the whole text. */
  function Splice(content: string, index: Option<nat>, line: string): string {
    match index
    case None => content + line + content
    case Some(i) => Utils.AddLine(content, line, i)
  }

  /** Lines put at one fixed offset come out in the reverse order of insertion: the later line
      sits above the earlier one. */
  lemma SpliceTwice(content: string, i: nat, first: string, second: string)
    requires i <= |content|
    ensures Splice(Splice(content, Some(i), first), Some(i), second) == content[..i] + second + first + content[i..]
  {
    var once := Utils.AddLine(content, first, i);
    assert once == content[..i] + first + content[i..];
    assert once[..i] == content[..i];
    assert once[i..] == first + content[i..];
  }

  /** `'import "' + normalize(relative(dirPath, path)) + '";\n'`, the double-quoted line of
      `_addJsImport`. */
  function JsImportLine(ops: PathOps, dirPath: string, path: string): string {
    "import \"" + Normalize(ops.relative(dirPath, path)) + "\";\n"
  }

  lemma JsImportLineIsLine(ops: PathOps, dirPath: string, path: string)
    ensures '\n' !in Normalize(ops.relative(dirPath, path)) ==> IsLine(JsImportLine(ops, dirPath, path))
  {
    var line := JsImportLine(ops, dirPath, path);
    assert line[..|line| - 1] == "import \"" + Normalize(ops.relative(dirPath, path)) + "\";";
  }

  // ---------------------------------------------------------------------------------------
  // Theme stylesheet content

  /** The import lines of the theme files, each a reference import unless the file is an entry
      point. */
  function FileLines(ops: PathOps, tempFileDir: string, files: seq<string>, isEntryPoint: bool): (lines: seq<string>)
    ensures |lines| == |files|
  {
    seq(|files|, k requires 0 <= k < |files| => BuildLessImport(ops.relative(tempFileDir, files[k]), isEntryPoint))
  }

  /** `_buildTempFileContent(files)`: a non-reference import of the original stylesheet, then
      the lines of the theme files. */
  function EntryContent(ops: PathOps, tempFileDir: string, importFilePath: string, files: seq<string>, isEntryPoint: bool): string {
    BuildLessImport(ops.relative(tempFileDir, importFilePath), true)
      + Concat(FileLines(ops, tempFileDir, files, isEntryPoint))
  }

  /** The entry content has `1 + |files|` lines: the original stylesheet as a non-reference
      import, then each file in order, a reference import exactly when not an entry point. This
      needs the normalised paths to be free of `\n`. */
  lemma EntryContentReadsBack(ops: PathOps, tempFileDir: string, importFilePath: string, files: seq<string>, isEntryPoint: bool)
    requires '\n' !in Utils.Normalize(ops, tempFileDir, importFilePath)
    requires forall k :: 0 <= k < |files| ==> '\n' !in Utils.Normalize(ops, tempFileDir, files[k])
    ensures var parsed := Utils.ParseImports(EntryContent(ops, tempFileDir, importFilePath, files, isEntryPoint));
      && |parsed| == 1 + |files|
      && parsed[0] == Some((false, Utils.Normalize(ops, tempFileDir, importFilePath)))
      && forall k :: 0 <= k < |files| ==>
        parsed[k + 1] == Some((!isEntryPoint, Utils.Normalize(ops, tempFileDir, files[k])))
  {
    var first := BuildLessImport(ops.relative(tempFileDir, importFilePath), true);
    var rest := FileLines(ops, tempFileDir, files, isEntryPoint);
    var lines := [first] + rest;
    assert IsLine(first) && Utils.ParseLessImport(first) == Some((false, Utils.Normalize(ops, tempFileDir, importFilePath))) by {
      BuildLessImportParses(ops, tempFileDir, importFilePath, true);
      Utils.BuildLessImportParses(ops, tempFileDir, importFilePath, false);
    }
    forall k | 0 <= k < |files|
      ensures IsLine(rest[k])
      ensures Utils.ParseLessImport(rest[k]) == Some((!isEntryPoint, Utils.Normalize(ops, tempFileDir, files[k])))
    {
      BuildLessImportParses(ops, tempFileDir, files[k], isEntryPoint);
      Utils.BuildLessImportParses(ops, tempFileDir, files[k], !isEntryPoint);
    }
    assert Concat(lines) == EntryContent(ops, tempFileDir, importFilePath, files, isEntryPoint) by {
      assert lines[0] == first && lines[1..] == rest;
    }
    forall k | 0 <= k < |lines| ensures IsLine(lines[k]) {
      if k > 0 {
        assert lines[k] == rest[k - 1];
      }
    }
    Utils.ParseLines(lines);
    forall k | 0 <= k < |files| ensures lines[k + 1] == rest[k] {
    }
  }

  /** What `addTheme` returns: the directory and path of the theme stylesheet and its content. */
  datatype ThemeEntry = ThemeEntry(dir: string, path: string, content: string)

  // ---------------------------------------------------------------------------------------
  // The class

  class JsFile {
    const ops: PathOps
    const baseFileName: string
    const dirPath: string
    const importFileIndex: Option<nat>
    const importFilePath: Option<string>
    var content: string
    var tempFileDir: Option<string>
    var isEntryPoint: bool

    /** The offset and the stylesheet are remembered together, and the offset stays inside the
        text. */
    ghost predicate Valid()
      reads this
    {
      && (importFileIndex.Some? <==> importFilePath.Some?)
      && (importFileIndex.Some? ==> importFileIndex.value <= |content|)
    }

    /** The body of `new JsFile(path, content)` once the search has succeeded or found nothing;
        `Open` is the whole constructor, including the case where it throws. */
    constructor (ops: PathOps, path: string, content: string)
      requires !Locate(content).Unreadable?
      ensures this.ops == ops && baseFileName == ops.basename(path, ".js") && dirPath == ops.dirname(path)
      ensures Locate(content).NoImport? ==>
        importFileIndex.None? && importFilePath.None? && this.content == content
      ensures Locate(content).Import? ==>
        && importFileIndex == Some(Locate(content).index)
        && importFilePath == Some(ops.resolve(ops.dirname(path), Locate(content).target))
        && this.content == Utils.RemoveLine(content, Locate(content).index)
      ensures tempFileDir.None? && !isEntryPoint
      ensures Valid()
    {
      this.ops := ops;
      baseFileName := ops.basename(path, ".js");
      dirPath := ops.dirname(path);
      tempFileDir := None;
      isEntryPoint := false;
      match Locate(content)
      case NoImport =>
        importFileIndex := None;
        importFilePath := None;
        this.content := content;
      case Import(index, target) =>
        Utils.RemoveLineKeepsPrefix(content, index);
        importFileIndex := Some(index);
        importFilePath := Some(ops.resolve(ops.dirname(path), target));
        this.content := Utils.RemoveLine(content, index);
    }

    /** `hasLess`: an import was found. */
    predicate HasLess() {
      importFileIndex.Some?
    }

    /** `originalLessFilePath`: the found stylesheet, resolved against the file's directory. */
    function OriginalLessFilePath(): Option<string> {
      importFilePath
    }

    /** `context(tempDir, context, isEntryPoint)`: where the theme stylesheets go, the file's
        directory taken relative to `context` and placed under `tempDir`. */
    method Context(tempDir: string, context: string, isEntryPoint: bool)
      requires Valid()
      modifies this
      ensures tempFileDir == Some(ops.resolve(tempDir, ops.relative(context, dirPath)))
      ensures this.isEntryPoint == isEntryPoint
      ensures content == old(content)
      ensures Valid()
    {
      tempFileDir := Some(ops.resolve(tempDir, ops.relative(context, dirPath)));
      this.isEntryPoint := isEntryPoint;
    }

    /** `_addLine(line)`: the line goes in at the saved offset. */
    method AddLine(line: string)
      requires Valid()
      modifies this
      ensures content == Splice(old(content), importFileIndex, line)
      ensures tempFileDir == old(tempFileDir) && isEntryPoint == old(isEntryPoint)
      ensures Valid()
    {
      match importFileIndex
      case None =>
        content := content + line + content;
      case Some(i) =>
        content := content[..i] + line + content[i..];
    }

    /** `_addJsImport(path)`. */
    method AddJsImport(path: string)
      requires Valid()
      modifies this
      ensures content == Splice(old(content), importFileIndex, JsImportLine(ops, dirPath, path))
      ensures tempFileDir == old(tempFileDir) && isEntryPoint == old(isEntryPoint)
      ensures Valid()
    {
      AddLine(JsImportLine(ops, dirPath, path));
    }

    /** `addTheme(name, files)`. Without `context` the first `resolve` throws and nothing
        changes. Without a found import the line is still spliced in (both slices being the
        whole text) before `relative(…, undefined)` throws. Otherwise the import of
        `<tempFileDir>/<base>.<name>.less` is put at the saved offset and the theme stylesheet is
        returned. */
    method AddTheme(name: string, files: seq<string>) returns (r: Result<ThemeEntry, string>)
      requires Valid()
      modifies this
      ensures tempFileDir.None? ==> r.Err? && content == old(content)
      ensures tempFileDir.Some? ==>
        var filePath := ops.resolve(tempFileDir.value, baseFileName + "." + name + ".less");
        && content == Splice(old(content), importFileIndex, JsImportLine(ops, dirPath, filePath))
        && (importFilePath.None? ==> r.Err?)
        && (importFilePath.Some? ==>
              r == Ok(ThemeEntry(tempFileDir.value, filePath,
                EntryContent(ops, tempFileDir.value, importFilePath.value, files, isEntryPoint))))
      ensures tempFileDir == old(tempFileDir) && isEntryPoint == old(isEntryPoint)
      ensures Valid()
    {
      if tempFileDir.None? {
        return Err("TypeError: path.resolve received undefined");
      }
      var filePath := ops.resolve(tempFileDir.value, baseFileName + "." + name + ".less");
      AddJsImport(filePath);
      if importFilePath.None? {
        return Err("TypeError: path.relative received undefined");
      }
      r := Ok(ThemeEntry(tempFileDir.value, filePath,
        EntryContent(ops, tempFileDir.value, importFilePath.value, files, isEntryPoint)));
    }
  }

  /** `new JsFile(path, content)`: throws when IMPORT_FILE cannot read the found import. */
  method Open(ops: PathOps, path: string, content: string) returns (r: Result<JsFile, string>)
    ensures r.Err? <==> Locate(content).Unreadable?
    ensures r.Ok? ==> fresh(r.value) && r.value.Valid() && r.value.tempFileDir.None?
    ensures r.Ok? ==>
      r.value.ops == ops && r.value.dirPath == ops.dirname(path) && r.value.baseFileName == ops.basename(path, ".js")
    ensures r.Ok? ==> (r.value.HasLess() <==> Locate(content).Import?)
    ensures r.Ok? && Locate(content).NoImport? ==> r.value.content == content
    ensures r.Ok? && Locate(content).Import? ==>
      && r.value.importFileIndex == Some(Locate(content).index)
      && r.value.OriginalLessFilePath() == Some(ops.resolve(ops.dirname(path), Locate(content).target))
      && r.value.content == Utils.RemoveLine(content, Locate(content).index)
  {
    if Locate(content).Unreadable? {
      return Err("TypeError: Cannot read properties of null (reading '1')");
    }
    var file := new JsFile(ops, path, content);
    return Ok(file);
  }
}

=== FILE: node_path.dfy ===
/**
 * The parts of Node's `path` module the plugin calls. `resolve`, `relative`, `dirname` and
 * `basename` stay abstract: they are fields of a `PathOps` record handed to every operation
 * that needs them. `isAbsolute` and `extname` are given concretely, following Node's POSIX
 * flavour, because the properties of extension handling and normalisation depend on them.
 */
module NodePath {

  /** The abstract collaborators: `resolve(a, b)`, `relative(from, to)`, `dirname(p)`,
      `basename(p, ext)`. */
  datatype PathOps = PathOps(
    resolve: (string, string) -> string,
    relative: (string, string) -> string,
    dirname: string -> string,
    basename: (string, string) -> string)

  /** `path.isAbsolute` on POSIX. */
  predicate IsAbsolute(p: string) {
    |p| > 0 && p[0] == '/'
  }

  /** Length of `p` once its trailing `/` characters are dropped. */
  function TrimmedLength(p: string, n: nat): (m: nat)
    requires n <= |p|
    ensures m <= n
    ensures m == 0 || p[m - 1] != '/'
    ensures forall k :: m <= k < n ==> p[k] == '/'
    decreases n
  {
    if n == 0 then 0
    else if p[n - 1] == '/' then TrimmedLength(p, n - 1)
    else n
  }

  /** Index of the last `c` in `s[..n]`, or -1. */
  function LastIndexBefore(s: string, c: char, n: nat): (r: int)
    requires n <= |s|
    ensures -1 <= r < n
    ensures r >= 0 ==> s[r] == c
    ensures forall k :: r < k < n ==> s[k] != c
    decreases n
  {
    if n == 0 then -1
    else if s[n - 1] == c then n - 1
    else LastIndexBefore(s, c, n - 1)
  }

  /** `path.extname` on POSIX. Trailing slashes are ignored; in the last segment the extension
      starts at the last `.`, unless that dot opens the segment or the segment is `..`. */
  function Extname(p: string): (ext: string)
    ensures ext == [] || (ext[0] == '.' && '/' !in ext && forall k :: 0 < k < |ext| ==> ext[k] != '.')
    ensures ext != [] ==> |ext| <= |p|
  {
    var t := TrimmedLength(p, |p|);
    var slash := LastIndexBefore(p, '/', t);
    var dot := LastIndexBefore(p, '.', t);
    if dot <= slash + 1 || (t == slash + 3 && p[slash + 1] == '.') then ""
    else p[dot..t]
  }

  /** After a path whose last character is not `/`, text holding no `/` whose only `.` opens
      it becomes the whole extension. */
  lemma ExtnameAppendDotted(p: string, q: string)
    requires p != [] && p[|p| - 1] != '/'
    requires |q| > 1 && q[0] == '.' && forall k :: 1 <= k < |q| ==> q[k] != '.' && q[k] != '/'
    ensures Extname(p + q) == q
  {
    var s := p + q;
    assert s[|s| - 1] == q[|q| - 1];
    var t := TrimmedLength(s, |s|);
    assert t == |s|;
    var slash := LastIndexBefore(s, '/', t);
    var dot := LastIndexBefore(s, '.', t);
    assert s[|p|] == q[0];
    assert dot == |p| by {
      forall k | |p| < k < |s| ensures s[k] != '.' {
        assert s[k] == q[k - |p|];
      }
    }
    assert slash < |p| - 1 by {
      forall k | |p| <= k < |s| ensures s[k] != '/' {
        assert s[k] == q[k - |p|];
      }
      assert s[|p| - 1] == p[|p| - 1];
    }
    assert s[dot..t] == q;
  }

  /** A path whose extension is a bare `.`, extended by text without `.` or `/`, has that text
      as the rest of its extension. */
  lemma ExtnameExtendDot(p: string, q: string)
    requires p != [] && p[|p| - 1] != '/' && Extname(p) == "."
    requires q != [] && forall k :: 0 <= k < |q| ==> q[k] != '.' && q[k] != '/'
    ensures Extname(p + q) == "." + q
  {
    var t0 := TrimmedLength(p, |p|);
    assert t0 == |p|;
    var slash0 := LastIndexBefore(p, '/', t0);
    var dot0 := LastIndexBefore(p, '.', t0);
    assert dot0 == |p| - 1;
    var s := p + q;
    assert s[|s| - 1] == q[|q| - 1];
    var t := TrimmedLength(s, |s|);
    assert t == |s|;
    var slash := LastIndexBefore(s, '/', t);
    var dot := LastIndexBefore(s, '.', t);
    assert s[|p| - 1] == p[|p| - 1];
    assert dot == |p| - 1 by {
      forall k | |p| <= k < |s| ensures s[k] != '.' {
        assert s[k] == q[k - |p|];
      }
    }
    assert slash == slash0 by {
      forall k | |p| <= k < |s| ensures s[k] != '/' {
        assert s[k] == q[k - |p|];
      }
      if slash0 >= 0 {
        assert s[slash0] == p[slash0];
      }
      forall k | slash0 < k < |p| ensures s[k] != '/' {
        assert s[k] == p[k];
      }
    }
    assert s[dot..t] == "." + q;
  }

  /** A name whose only `.` opens it, such as `.less`, is a dot-file without extension. */
  lemma ExtnameDotFile(p: string)
    requires |p| > 1 && p[0] == '.'
    requires forall k :: 1 <= k < |p| ==> p[k] != '.' && p[k] != '/'
    ensures Extname(p) == ""
  {
    assert TrimmedLength(p, |p|) == |p|;
    assert LastIndexBefore(p, '/', |p|) == -1;
    assert LastIndexBefore(p, '.', |p|) == 0;
  }
}

=== FILE: process_options_themes.dfy ===
/**
 * `src/processOptionsThemes.js`: the plugin's `themes` option is a tree of plain objects whose
 * leaves are file names (a string or an array). The function walks it depth first and builds a
 * table from theme name (the keys along the branch joined with `.`) to the resolved files of
 * that theme, then returns the table and its keys. Two keys of a branch are reserved: a string
 * `path` is resolved onto the directory of every descendant, and a string or array `include`
 * is put in front of the file list of every descendant.
 *
 * The walk is specified in two steps. `Events` lists, in order, every call of the inner
 * `saveFile` the walk makes; `Run` applies those calls to the table (`Apply` is one call). The
 * class `Flattener` is the closure itself: its fields are the table being built, and its
 * methods `SaveFile` and `ProcessBranch` are proved to do what `Apply` and `Run` say.
 * `Descend` is a second, route-based reading of the tree that the lemmas at the end relate to
 * `Events`.
 */
module ThemeTree {
  import opened Wrappers
  import opened NodePath
  import Utils

  // ---------------------------------------------------------------------------------------
  // JavaScript values in the options tree

  /** A value of the options tree: a string, an array, an object with its own enumerable
      properties in `Object.keys` order, or any other value (number, boolean, `null`,
      `undefined`, function, class instance), of which only the truthiness matters. */
  datatype Value =
    | Str(s: string)
    | Arr(items: seq<Value>)
    | Obj(entries: seq<(string, Value)>)
    | Prim(truthy: bool)

  /** JavaScript truthiness. */
  predicate Truthy(v: Value) {
    match v
    case Str(s) => s != ""
    case Prim(t) => t
    case _ => true
  }

  /** `isFile`: a string or an array. */
  predicate IsFile(v: Value) {
    v.Str? || v.Arr?
  }

  /** The first entry under `key`. */
  function Lookup(entries: seq<(string, Value)>, key: string): (r: Option<Value>)
    ensures r.Some? ==> exists i :: 0 <= i < |entries| && entries[i] == (key, r.value)
    ensures r.None? ==> forall i :: 0 <= i < |entries| ==> entries[i].0 != key
  {
    if entries == [] then None
    else if entries[0].0 == key then Some(entries[0].1)
    else
      var r := Lookup(entries[1..], key);
      assert r.Some? ==> entries[1..][0] == entries[1];
      assert forall i :: 1 <= i < |entries| ==> entries[i] == entries[1..][i - 1];
      r
  }

  /** `isObject`: `value.constructor === Object`. An object with an own `constructor`
      property is therefore not a plain object; arrays, strings and the other values are not
      either. */
  predicate IsPlainObject(v: Value) {
    v.Obj? && Lookup(v.entries, "constructor").None?
  }

  /** `files.concat(value)`: a string is appended, an array is spread one level. */
  function Spread(v: Value): (r: seq<Value>)
    requires IsFile(v)
  {
    if v.Str? then [v] else v.items
  }

  /** `themeName + (themeName ? '.' : '') + key`. */
  function Child(themeName: string, key: string): string {
    themeName + (if themeName != "" then "." else "") + key
  }

  // ---------------------------------------------------------------------------------------
  // The walk: the `saveFile` calls it makes

  /** `saveFile(filename, currentPath, themeName)`. */
  datatype Save = Save(filename: Value, currentPath: string, themeName: string)

  /** The directory and inherited files a branch hands to its children, and which of the
      reserved keys it consumed (and deleted). */
  datatype Branch = Branch(dir: string, files: seq<Value>, pathTaken: bool, includeTaken: bool)

  /** Lines 40-48: a string `path` is resolved onto the directory, a file-like `include` is
      appended to the inherited files. */
  function Enter(ops: PathOps, entries: seq<(string, Value)>, currentPath: string, files: seq<Value>): Branch {
    var path := Lookup(entries, "path");
    var inc := Lookup(entries, "include");
    var pathTaken := path.Some? && path.value.Str?;
    var includeTaken := inc.Some? && IsFile(inc.value);
    Branch(
      if pathTaken then ops.resolve(currentPath, path.value.s) else currentPath,
      if includeTaken then files + Spread(inc.value) else files,
      pathTaken, includeTaken)
  }

  /** The key was consumed by the branch and deleted before its keys are listed. */
  predicate Taken(b: Branch, key: string) {
    (key == "path" && b.pathTaken) || (key == "include" && b.includeTaken)
  }

  /** One `saveFile` call per file name, in order. */
  function LeafSaves(filenames: seq<Value>, currentPath: string, themeName: string): (r: seq<Save>)
    ensures |r| == |filenames|
    ensures forall k :: 0 <= k < |r| ==> r[k] == Save(filenames[k], currentPath, themeName)
  {
    seq(|filenames|, k requires 0 <= k < |filenames| => Save(filenames[k], currentPath, themeName))
  }

  /** `processBranch(data, currentPath, themeName, files)`, as the list of `saveFile` calls it
      makes. */
  function Events(ops: PathOps, data: Value, currentPath: string, themeName: string, files: seq<Value>): seq<Save>
    decreases data, if data.Obj? then |data.entries| + 1 else 1
  {
    match data
    case Str(_) => LeafSaves(files + Spread(data), currentPath, themeName)
    case Arr(_) => LeafSaves(files + Spread(data), currentPath, themeName)
    case Obj(entries) =>
      if !IsPlainObject(data) then []
      else EntriesEvents(ops, data, |entries|, Enter(ops, entries, currentPath, files), themeName)
    case Prim(_) => []
  }

  /** The first `n` rounds of the `Object.keys(data).forEach` loop over the branch's entries
      (the key order is the entries' order), skipping the consumed keys. */
  function EntriesEvents(ops: PathOps, data: Value, n: nat, b: Branch, themeName: string): seq<Save>
    requires data.Obj? && n <= |data.entries|
    decreases data, n
  {
    if n == 0 then [] else EntriesEvents(ops, data, n - 1, b, themeName) + EntryEvents(ops, data, n - 1, b, themeName)
  }

  /** Round `k` of that loop: nothing for a consumed key, else the walk of the entry's value
      under the child name. */
  function EntryEvents(ops: PathOps, data: Value, k: nat, b: Branch, themeName: string): seq<Save>
    requires data.Obj? && k < |data.entries|
    decreases data, 0
  {
    var entry := data.entries[k];
    if Taken(b, entry.0) then [] else Events(ops, entry.1, b.dir, Child(themeName, entry.0), b.files)
  }

  // ---------------------------------------------------------------------------------------
  // The table

  /** What the function closes over besides the table: the path functions, `fs.existsSync`
      and the `skipFileCheck` flag. */
  datatype Env = Env(ops: PathOps, fileExists: string -> bool, skipFileCheck: bool)

  /** How the function throws: `Theme file not found: <path>`, or a `TypeError` (a truthy
      file name that is not a string reaches `extname`; a theme name inherited from
      `Object.prototype` has no `files` array to push to). */
  datatype Failure = NotFound(path: string) | TypeError

  /** The names `themes[name]` finds on `Object.prototype` although `themes` starts as `{}`. */
  const PrototypeNames: set<string> := {
    "constructor", "hasOwnProperty", "isPrototypeOf", "propertyIsEnumerable", "toString",
    "toLocaleString", "valueOf", "__proto__", "__defineGetter__", "__defineSetter__",
    "__lookupGetter__", "__lookupSetter__"}

  predicate IsDigit(c: char) {
    '0' <= c <= '9'
  }

  /** The decimal value of a string of digits. */
  function DigitsValue(s: string): nat
    requires forall k :: 0 <= k < |s| ==> IsDigit(s[k])
  {
    if s == [] then 0
    else
      assert IsDigit(s[|s| - 1]);
      10 * DigitsValue(s[..|s| - 1]) + (s[|s| - 1] as int - '0' as int)
  }

  /** An array index: the canonical decimal form of an integer below 2^32 - 1. Object keys of
      this form are listed first, in increasing numeric order. */
  predicate IsArrayIndex(k: string) {
    && |k| > 0
    && (forall i :: 0 <= i < |k| ==> IsDigit(k[i]))
    && (k[0] != '0' || |k| == 1)
    && DigitsValue(k) < 0xFFFF_FFFF
  }

  /** Where `Object.keys` lists a newly created property: an array index among the leading
      array indices by value, any other name at the end. */
  function InsertKey(keys: seq<string>, k: string): (r: seq<string>)
    ensures multiset(r) == multiset(keys) + multiset{k}
    ensures !IsArrayIndex(k) ==> r == keys + [k]
  {
    if !IsArrayIndex(k) then keys + [k]
    else if keys == [] || !IsArrayIndex(keys[0]) || DigitsValue(k) < DigitsValue(keys[0]) then [k] + keys
    else
      assert keys == [keys[0]] + keys[1..];
      [keys[0]] + InsertKey(keys[1..], k)
  }

  /** The themes object: its own properties and their `files` arrays, and `Object.keys`. */
  datatype Table = Table(files: map<string, seq<string>>, keys: seq<string>)

  /** The file a name stands for: `resolve(currentPath, addLessExtension(filename))`. */
  function FilePath(ops: PathOps, currentPath: string, filename: string): string {
    ops.resolve(currentPath, Utils.AddLessExtension(filename))
  }

  /** One `saveFile` call (lines 13-30): the theme is created unless `themes[name]` already
      finds something; a falsy name adds nothing; a truthy name must be a string, its resolved
      file must exist unless the check is skipped, and it is pushed. */
  function Apply(env: Env, t: Table, e: Save): Result<Table, Failure> {
    var t1 :=
      if e.themeName in t.files || e.themeName in PrototypeNames then t
      else Table(t.files[e.themeName := []], InsertKey(t.keys, e.themeName));
    if !Truthy(e.filename) then Ok(t1)
    else if !e.filename.Str? then Err(TypeError)
    else
      var path := FilePath(env.ops, e.currentPath, e.filename.s);
      if !env.skipFileCheck && !env.fileExists(path) then Err(NotFound(path))
      else if e.themeName !in t1.files then Err(TypeError)
      else Ok(Table(t1.files[e.themeName := t1.files[e.themeName] + [path]], t1.keys))
  }

  /** The calls one after the other; the first failure ends the function. */
  function Run(env: Env, t: Table, saves: seq<Save>): Result<Table, Failure>
    decreases |saves|
  {
    if saves == [] then Ok(t)
    else match Apply(env, t, saves[0])
      case Err(f) => Err(f)
      case Ok(t1) => Run(env, t1, saves[1..])
  }

  /** Running two lists of calls is running the first, then the second on its result. */
  lemma {:induction false} RunAppend(env: Env, t: Table, a: seq<Save>, b: seq<Save>)
    ensures Run(env, t, a + b) == match Run(env, t, a) case Err(f) => Err(f) case Ok(t1) => Run(env, t1, b)
    decreases |a|
  {
    if a != [] {
      assert (a + b)[0] == a[0] && (a + b)[1..] == a[1..] + b;
      if Apply(env, t, a[0]).Ok? {
        RunAppend(env, Apply(env, t, a[0]).value, a[1..], b);
      }
    } else {
      assert a + b == b;
    }
  }

  /** Once a prefix of the calls fails, the whole list fails the same way. */
  lemma RunErrPrefix(env: Env, t: Table, a: seq<Save>, b: seq<Save>)
    requires a <= b && Run(env, t, a).Err?
    ensures Run(env, t, b) == Run(env, t, a)
  {
    assert b == a + b[|a|..];
    RunAppend(env, t, a, b[|a|..]);
  }

  /** The whole function: the walk from the normalised themes directory, then the table's
      properties and keys. */
  function Flatten(env: Env, optionsThemes: Value, themesPath: string, cwd: string): Result<(map<string, seq<string>>, seq<string>), Failure> {
    var saves := Events(env.ops, optionsThemes, Utils.Normalize(env.ops, cwd, themesPath), "", []);
    match Run(env, Table(map[], []), saves)
    case Err(f) => Err(f)
    case Ok(t) => Ok((t.files, t.keys))
  }

  /** What a call that may throw leaves: the failure, or the table. */
  function Outcome(err: Option<Failure>, t: Table): Result<Table, Failure> {
    if err.Some? then Err(err.value) else Ok(t)
  }

  // ---------------------------------------------------------------------------------------
  // The closure

  /** The state of one call of the exported function: what it closes over and the `themes`
      object it fills. */
  class Flattener {
    const env: Env
    var themes: map<string, seq<string>>
    var keys: seq<string>

    function Snapshot(): Table
      reads this
    {
      Table(themes, keys)
    }

    /** `const themes = {}`. */
    constructor (env: Env)
      ensures this.env == env && themes == map[] && keys == []
    {
      this.env := env;
      themes := map[];
      keys := [];
    }

    /** `saveFile(filename, currentPath, themeName)`; a thrown error is returned. */
    method SaveFile(filename: Value, currentPath: string, themeName: string) returns (err: Option<Failure>)
      modifies this
      ensures Outcome(err, Snapshot()) == Apply(env, old(Snapshot()), Save(filename, currentPath, themeName))
    {
      if themeName !in themes && themeName !in PrototypeNames {
        themes := themes[themeName := []];
        keys := InsertKey(keys, themeName);
      }
      if Truthy(filename) {
        if !filename.Str? {
          return Some(TypeError);
        }
        var filePath := env.ops.resolve(currentPath, Utils.AddLessExtension(filename.s));
        if !env.skipFileCheck && !env.fileExists(filePath) {
          return Some(NotFound(filePath));
        }
        if themeName !in themes {
          return Some(TypeError);
        }
        themes := themes[themeName := themes[themeName] + [filePath]];
      }
      return None;
    }

    /** `files.concat(data).forEach((filename) => saveFile(…))`. */
    method SaveAll(filenames: seq<Value>, currentPath: string, themeName: string) returns (err: Option<Failure>)
      modifies this
      ensures Outcome(err, Snapshot()) == Run(env, old(Snapshot()), LeafSaves(filenames, currentPath, themeName))
    {
      var i := 0;
      while i < |filenames|
        invariant 0 <= i <= |filenames|
        invariant Run(env, old(Snapshot()), LeafSaves(filenames[..i], currentPath, themeName)) == Ok(Snapshot())
      {
        ghost var done := LeafSaves(filenames[..i], currentPath, themeName);
        ghost var step := Save(filenames[i], currentPath, themeName);
        err := SaveFile(filenames[i], currentPath, themeName);
        assert LeafSaves(filenames[..i + 1], currentPath, themeName) == done + [step];
        RunAppend(env, old(Snapshot()), done, [step]);
        if err.Some? {
          RunErrPrefix(env, old(Snapshot()), done + [step], LeafSaves(filenames, currentPath, themeName));
          return;
        }
        i := i + 1;
      }
      assert filenames[..i] == filenames;
      return None;
    }

    /** `processBranch(data, currentPath, themeName, files)`; a thrown error is returned. */
    method ProcessBranch(data: Value, currentPath: string, themeName: string, files: seq<Value>) returns (err: Option<Failure>)
      modifies this
      ensures Outcome(err, Snapshot()) == Run(env, old(Snapshot()), Events(env.ops, data, currentPath, themeName, files))
      decreases data, 2
    {
      if IsFile(data) {
        err := SaveAll(files + Spread(data), currentPath, themeName);
      } else if IsPlainObject(data) {
        err := ProcessEntries(data, Enter(env.ops, data.entries, currentPath, files), themeName);
      } else {
        err := None;
      }
    }

    /** `Object.keys(data).forEach((key) => processBranch(data[key], …))` once `path` and
        `include` have been taken. */
    method ProcessEntries(data: Value, b: Branch, themeName: string) returns (err: Option<Failure>)
      requires data.Obj?
      modifies this
      ensures Outcome(err, Snapshot()) == Run(env, old(Snapshot()), EntriesEvents(env.ops, data, |data.entries|, b, themeName))
      decreases data, 1
    {
      var entries := data.entries;
      var i := 0;
      while i < |entries|
        invariant 0 <= i <= |entries|
        invariant Run(env, old(Snapshot()), EntriesEvents(env.ops, data, i, b, themeName)) == Ok(Snapshot())
      {
        ghost var before := Snapshot();
        var key := entries[i].0;
        if Taken(b, key) {
          err := None;
          assert EntryEvents(env.ops, data, i, b, themeName) == [];
        } else {
          err := ProcessBranch(entries[i].1, b.dir, Child(themeName, key), b.files);
          assert EntryEvents(env.ops, data, i, b, themeName) == Events(env.ops, entries[i].1, b.dir, Child(themeName, key), b.files);
        }
        EntriesRound(env, old(Snapshot()), data, i, b, themeName, before, err, Snapshot());
        if err.Some? {
          return;
        }
        i := i + 1;
      }
      err := None;
    }
  }

  /** One round of the loop over the keys: after the rounds before it left `before`, the round
      leaves what the first `i + 1` rounds give, or its failure is the failure of all of them. */
  lemma EntriesRound(env: Env, t: Table, data: Value, i: nat, b: Branch, themeName: string,
                     before: Table, err: Option<Failure>, after: Table)
    requires data.Obj? && i < |data.entries|
    requires Run(env, t, EntriesEvents(env.ops, data, i, b, themeName)) == Ok(before)
    requires Outcome(err, after) == Run(env, before, EntryEvents(env.ops, data, i, b, themeName))
    ensures err.None? ==> Run(env, t, EntriesEvents(env.ops, data, i + 1, b, themeName)) == Ok(after)
    ensures err.Some? ==> Run(env, t, EntriesEvents(env.ops, data, |data.entries|, b, themeName)) == Err(err.value)
  {
    RunEntriesStep(env, t, data, i, b, themeName);
    if err.Some? {
      RunEntriesFail(env, t, data, i + 1, b, themeName);
    }
  }

  /** Running the first `i + 1` rounds is running the first `i`, then round `i`. */
  lemma RunEntriesStep(env: Env, t: Table, data: Value, i: nat, b: Branch, themeName: string)
    requires data.Obj? && i < |data.entries|
    ensures Run(env, t, EntriesEvents(env.ops, data, i + 1, b, themeName))
      == match Run(env, t, EntriesEvents(env.ops, data, i, b, themeName))
         case Err(f) => Err(f)
         case Ok(t1) => Run(env, t1, EntryEvents(env.ops, data, i, b, themeName))
  {
    RunAppend(env, t, EntriesEvents(env.ops, data, i, b, themeName), EntryEvents(env.ops, data, i, b, themeName));
  }

  /** A failure in the first rounds is the failure of all of them. */
  lemma RunEntriesFail(env: Env, t: Table, data: Value, i: nat, b: Branch, themeName: string)
    requires data.Obj? && i <= |data.entries|
    requires Run(env, t, EntriesEvents(env.ops, data, i, b, themeName)).Err?
    ensures Run(env, t, EntriesEvents(env.ops, data, |data.entries|, b, themeName))
      == Run(env, t, EntriesEvents(env.ops, data, i, b, themeName))
  {
    EntriesEventsPrefix(env.ops, data, i, |data.entries|, b, themeName);
    RunErrPrefix(env, t, EntriesEvents(env.ops, data, i, b, themeName), EntriesEvents(env.ops, data, |data.entries|, b, themeName));
  }

  /** The calls of the first rounds come first. */
  lemma {:induction false} EntriesEventsPrefix(ops: PathOps, data: Value, i: nat, n: nat, b: Branch, themeName: string)
    requires data.Obj? && i <= n <= |data.entries|
    ensures EntriesEvents(ops, data, i, b, themeName) <= EntriesEvents(ops, data, n, b, themeName)
    decreases n
  {
    if i < n {
      EntriesEventsPrefix(ops, data, i, n - 1, b, themeName);
    }
  }

  /** The exported function: the themes table and `Object.keys(themes)`, or the error it
      throws. */
  method ProcessOptionsThemes(env: Env, optionsThemes: Value, themesPath: string, cwd: string)
    returns (r: Result<(map<string, seq<string>>, seq<string>), Failure>)
    ensures r == Flatten(env, optionsThemes, themesPath, cwd)
  {
    var flattener := new Flattener(env);
    var err := flattener.ProcessBranch(optionsThemes, Utils.Normalize(env.ops, cwd, themesPath), "", []);
    if err.Some? {
      return Err(err.value);
    }
    return Ok((flattener.themes, flattener.keys));
  }

  // ---------------------------------------------------------------------------------------
  // The table's keys

  /** No name is listed twice. */
  predicate Distinct(keys: seq<string>) {
    forall i, j :: 0 <= i < j < |keys| ==> keys[i] != keys[j]
  }

  /** `Object.keys` order: array indices first, by value. */
  predicate IndicesFirst(keys: seq<string>) {
    forall i, j :: 0 <= i < j < |keys| && IsArrayIndex(keys[j]) ==>
      IsArrayIndex(keys[i]) && DigitsValue(keys[i]) <= DigitsValue(keys[j])
  }

  /** The keys list the table's properties, each once, in `Object.keys` order, and no property
      is named after one of `Object.prototype`. */
  ghost predicate Valid(t: Table) {
    && (forall k :: k in t.files <==> k in t.keys)
    && Distinct(t.keys)
    && IndicesFirst(t.keys)
    && (forall k :: k in t.files ==> k !in PrototypeNames)
  }

  /** Inserting a key adds exactly that name. */
  lemma InsertKeyMembers(keys: seq<string>, k: string)
    ensures forall x :: x in InsertKey(keys, k) <==> x in keys || x == k
  {
    var r := InsertKey(keys, k);
    forall x ensures x in r <==> x in keys || x == k {
      assert x in r <==> x in multiset(r);
      assert x in keys <==> x in multiset(keys);
    }
  }

  /** A new key goes where `Object.keys` keeps the order. */
  lemma {:induction false} InsertKeyOrdered(keys: seq<string>, k: string)
    requires IndicesFirst(keys) && Distinct(keys) && k !in keys
    ensures IndicesFirst(InsertKey(keys, k)) && Distinct(InsertKey(keys, k))
  {
    if !IsArrayIndex(k) {
      AppendOrdered(keys, k);
    } else if keys == [] || !IsArrayIndex(keys[0]) || DigitsValue(k) < DigitsValue(keys[0]) {
      PrependOrdered(k, keys);
    } else {
      var tail := keys[1..];
      TailOrdered(keys);
      InsertKeyOrdered(tail, k);
      InsertKeyMembers(tail, k);
      var rt := InsertKey(tail, k);
      forall y | y in rt && IsArrayIndex(y) ensures DigitsValue(keys[0]) <= DigitsValue(y) {
        if y != k {
          var m :| 0 <= m < |tail| && tail[m] == y;
          assert keys[m + 1] == y;
        }
      }
      assert keys[0] !in tail;
      PrependOrdered(keys[0], rt);
      assert InsertKey(keys, k) == [keys[0]] + rt;
    }
  }

  /** A name that is no array index may follow an ordered list. */
  lemma AppendOrdered(keys: seq<string>, k: string)
    requires IndicesFirst(keys) && Distinct(keys) && k !in keys && !IsArrayIndex(k)
    ensures IndicesFirst(keys + [k]) && Distinct(keys + [k])
  {
    var r := keys + [k];
    forall i, j | 0 <= i < j < |r| ensures r[i] != r[j] && (IsArrayIndex(r[j]) ==> IsArrayIndex(r[i]) && DigitsValue(r[i]) <= DigitsValue(r[j])) {
      assert r[i] == keys[i];
      if j < |keys| {
        assert r[j] == keys[j];
      }
    }
  }

  /** Dropping the first key keeps the order. */
  lemma TailOrdered(keys: seq<string>)
    requires keys != [] && IndicesFirst(keys) && Distinct(keys)
    ensures IndicesFirst(keys[1..]) && Distinct(keys[1..]) && keys[0] !in keys[1..]
  {
    var tail := keys[1..];
    forall i, j | 0 <= i < j < |tail| ensures tail[i] != tail[j] {
      assert tail[i] == keys[i + 1] && tail[j] == keys[j + 1];
    }
    forall i | 0 <= i < |tail| ensures tail[i] != keys[0] {
      assert tail[i] == keys[i + 1];
    }
  }

  /** An array index no larger than every array index of an ordered list may lead it. */
  lemma PrependOrdered(x: string, keys: seq<string>)
    requires IndicesFirst(keys) && Distinct(keys) && x !in keys && IsArrayIndex(x)
    requires forall y :: y in keys && IsArrayIndex(y) ==> DigitsValue(x) <= DigitsValue(y)
    ensures IndicesFirst([x] + keys) && Distinct([x] + keys)
  {
    var r := [x] + keys;
    forall i, j | 0 <= i < j < |r| ensures r[i] != r[j] && (IsArrayIndex(r[j]) ==> IsArrayIndex(r[i]) && DigitsValue(r[i]) <= DigitsValue(r[j])) {
      assert r[j] == keys[j - 1];
      if i > 0 {
        assert r[i] == keys[i - 1];
      }
    }
  }

  /** One call keeps the table valid. */
  lemma ApplyValid(env: Env, t: Table, e: Save)
    requires Valid(t) && Apply(env, t, e).Ok?
    ensures Valid(Apply(env, t, e).value)
  {
    if e.themeName !in t.files && e.themeName !in PrototypeNames {
      InsertKeyOrdered(t.keys, e.themeName);
      InsertKeyMembers(t.keys, e.themeName);
    }
  }

  /** All the calls keep the table valid. */
  lemma {:induction false} RunValid(env: Env, t: Table, saves: seq<Save>)
    requires Valid(t) && Run(env, t, saves).Ok?
    ensures Valid(Run(env, t, saves).value)
    decreases |saves|
  {
    if saves != [] {
      ApplyValid(env, t, saves[0]);
      RunValid(env, Apply(env, t, saves[0]).value, saves[1..]);
    }
  }

  /** The second result lists exactly the themes of the first, each once, array indices
      first in increasing value. */
  lemma FlattenKeys(env: Env, optionsThemes: Value, themesPath: string, cwd: string)
    requires Flatten(env, optionsThemes, themesPath, cwd).Ok?
    ensures var (themes, keys) := Flatten(env, optionsThemes, themesPath, cwd).value;
      && (forall k :: k in themes <==> k in keys)
      && Distinct(keys)
      && IndicesFirst(keys)
  {
    var saves := Events(env.ops, optionsThemes, Utils.Normalize(env.ops, cwd, themesPath), "", []);
    RunValid(env, Table(map[], []), saves);
  }

  // ---------------------------------------------------------------------------------------
  // Which themes are created, in which order, with which files

  /** The themes the calls create, in order of first appearance, skipping names already
      present and the names `Object.prototype` answers for. */
  function Created(known: set<string>, saves: seq<Save>): seq<string>
    decreases |saves|
  {
    if saves == [] then []
    else
      var name := saves[0].themeName;
      if name in known || name in PrototypeNames then Created(known, saves[1..])
      else [name] + Created(known + {name}, saves[1..])
  }

  /** The file one call pushes for `name`: its file name resolved, when it is a non-empty
      string and the call is for `name`. */
  function PushedBy(ops: PathOps, e: Save, name: string): seq<string> {
    if e.themeName == name && Truthy(e.filename) && e.filename.Str? then [FilePath(ops, e.currentPath, e.filename.s)] else []
  }

  /** The files the calls push for `name`, in order. */
  function Pushed(ops: PathOps, saves: seq<Save>, name: string): seq<string>
    decreases |saves|
  {
    if saves == [] then [] else PushedBy(ops, saves[0], name) + Pushed(ops, saves[1..], name)
  }

  /** The files of `name` in `t`, none if it is absent. */
  function FilesOf(t: Table, name: string): seq<string> {
    if name in t.files then t.files[name] else []
  }

  /** One successful call creates its theme (unless `Object.prototype` answers for the name)
      and pushes its file. */
  lemma ApplyFiles(env: Env, t: Table, e: Save)
    requires Apply(env, t, e).Ok?
    ensures var t1 := Apply(env, t, e).value;
      forall name ::
        && (name in t1.files <==> name in t.files || (name == e.themeName && name !in PrototypeNames))
        && (name in t1.files ==> FilesOf(t1, name) == FilesOf(t, name) + PushedBy(env.ops, e, name))
        && (name !in t1.files ==> PushedBy(env.ops, e, name) == [])
  {
    forall name
      ensures var t1 := Apply(env, t, e).value;
        && (name in t1.files <==> name in t.files || (name == e.themeName && name !in PrototypeNames))
        && (name in t1.files ==> FilesOf(t1, name) == FilesOf(t, name) + PushedBy(env.ops, e, name))
        && (name !in t1.files ==> PushedBy(env.ops, e, name) == [])
    {
      ApplyName(env, t, e, name);
    }
  }

  lemma ApplyName(env: Env, t: Table, e: Save, name: string)
    requires Apply(env, t, e).Ok?
    ensures var t1 := Apply(env, t, e).value;
      && (name in t1.files <==> name in t.files || (name == e.themeName && name !in PrototypeNames))
      && (name in t1.files ==> FilesOf(t1, name) == FilesOf(t, name) + PushedBy(env.ops, e, name))
      && (name !in t1.files ==> PushedBy(env.ops, e, name) == [])
  {
    if name == e.themeName && Truthy(e.filename) && e.filename.Str? && e.themeName in t.files {
      assert FilesOf(Apply(env, t, e).value, name) == t.files[name] + [FilePath(env.ops, e.currentPath, e.filename.s)];
    }
  }

  /** One call followed by the rest, name by name; `blocked` stands for the names
      `Object.prototype` answers for. */
  lemma StepFiles(ops: PathOps, e: Save, rest: seq<Save>, t: Table, t1: Table, t2: Table, name: string, blocked: set<string>)
    requires name in t1.files <==> name in t.files || (name == e.themeName && name !in blocked)
    requires name in t1.files ==> FilesOf(t1, name) == FilesOf(t, name) + PushedBy(ops, e, name)
    requires name !in t1.files ==> PushedBy(ops, e, name) == []
    requires name in t2.files <==> name in t1.files || (Named(rest, name) && name !in blocked)
    requires name in t2.files ==> t2.files[name] == FilesOf(t1, name) + Pushed(ops, rest, name)
    ensures name in t2.files <==> name in t.files || (Named([e] + rest, name) && name !in blocked)
    ensures name in t2.files ==> t2.files[name] == FilesOf(t, name) + Pushed(ops, [e] + rest, name)
  {
    assert name in t2.files <==> name in t.files || (Named([e] + rest, name) && name !in blocked) by {
      NamedCons(e, rest, name);
    }
    if name in t2.files {
      var p, q := PushedBy(ops, e, name), Pushed(ops, rest, name);
      assert Pushed(ops, [e] + rest, name) == p + q by {
        PushedCons(ops, e, rest, name);
      }
      assert FilesOf(t1, name) == FilesOf(t, name) + p;
      AppendAssoc(FilesOf(t, name), p, q);
    }
  }

  lemma AppendAssoc<T>(a: seq<T>, b: seq<T>, c: seq<T>)
    ensures a + b + c == a + (b + c)
  {
  }

  lemma NamedCons(e: Save, rest: seq<Save>, name: string)
    ensures Named([e] + rest, name) <==> e.themeName == name || Named(rest, name)
  {
    var saves := [e] + rest;
    if Named(rest, name) {
      var k :| 0 <= k < |rest| && rest[k].themeName == name;
      assert saves[k + 1].themeName == name;
    }
    if Named(saves, name) && e.themeName != name {
      var k :| 0 <= k < |saves| && saves[k].themeName == name;
      assert rest[k - 1].themeName == name;
    }
    assert saves[0].themeName == e.themeName;
  }

  lemma PushedCons(ops: PathOps, e: Save, rest: seq<Save>, name: string)
    ensures Pushed(ops, [e] + rest, name) == PushedBy(ops, e, name) + Pushed(ops, rest, name)
  {
    assert ([e] + rest)[1..] == rest;
  }

  /** Some call names the theme. */
  predicate Named(saves: seq<Save>, name: string) {
    exists k :: 0 <= k < |saves| && saves[k].themeName == name
  }

  /** Without array-index names, the calls append the themes they create to the keys in the
      order the themes are first met. */
  lemma {:induction false} RunOrder(env: Env, t: Table, saves: seq<Save>)
    requires Run(env, t, saves).Ok?
    requires forall k :: 0 <= k < |saves| ==> !IsArrayIndex(saves[k].themeName)
    ensures Run(env, t, saves).value.keys == t.keys + Created(t.files.Keys, saves)
    decreases |saves|
  {
    if saves != [] {
      var e := saves[0];
      var t1 := Apply(env, t, e).value;
      ApplyOrder(env, t, e);
      forall k | 0 <= k < |saves| - 1 ensures !IsArrayIndex(saves[1..][k].themeName) {
        assert saves[1..][k] == saves[k + 1];
      }
      RunOrder(env, t1, saves[1..]);
      assert saves == [e] + saves[1..];
      OrderStep(t.keys, t1.keys, t.files.Keys, t1.files.Keys, e, saves[1..]);
    }
  }

  /** One call that appends the theme it creates, followed by the rest. */
  lemma OrderStep(keys: seq<string>, keys1: seq<string>, known: set<string>, known1: set<string>, e: Save, rest: seq<Save>)
    requires var created := e.themeName !in known && e.themeName !in PrototypeNames;
      && keys1 == keys + (if created then [e.themeName] else [])
      && known1 == known + (if created then {e.themeName} else {})
    ensures keys1 + Created(known1, rest) == keys + Created(known, [e] + rest)
  {
    assert ([e] + rest)[0] == e && ([e] + rest)[1..] == rest;
    if e.themeName !in known && e.themeName !in PrototypeNames {
      assert keys + [e.themeName] + Created(known1, rest) == keys + ([e.themeName] + Created(known1, rest));
    } else {
      assert known1 == known;
    }
  }

  /** One successful call whose name is no array index appends the name if it creates the
      theme. */
  lemma ApplyOrder(env: Env, t: Table, e: Save)
    requires Apply(env, t, e).Ok? && !IsArrayIndex(e.themeName)
    ensures var created := e.themeName !in t.files.Keys && e.themeName !in PrototypeNames;
      && Apply(env, t, e).value.keys == t.keys + (if created then [e.themeName] else [])
      && Apply(env, t, e).value.files.Keys == t.files.Keys + (if created then {e.themeName} else {})
  {
  }

  /** After the calls, a theme is present exactly when it was before or some call names it
      (and `Object.prototype` does not answer for it); its files are the ones it had followed by
      the ones the calls pushed for it. */
  lemma {:induction false} RunFiles(env: Env, t: Table, saves: seq<Save>)
    requires Run(env, t, saves).Ok?
    ensures var t2 := Run(env, t, saves).value;
      forall name ::
        && (name in t2.files <==> name in t.files || (Named(saves, name) && name !in PrototypeNames))
        && (name in t2.files ==> t2.files[name] == FilesOf(t, name) + Pushed(env.ops, saves, name))
    decreases |saves|
  {
    if saves != [] {
      var e := saves[0];
      var t1 := Apply(env, t, e).value;
      ApplyFiles(env, t, e);
      RunFiles(env, t1, saves[1..]);
      var t2 := Run(env, t, saves).value;
      assert saves == [e] + saves[1..];
      forall name
        ensures name in t2.files <==> name in t.files || (Named(saves, name) && name !in PrototypeNames)
        ensures name in t2.files ==> t2.files[name] == FilesOf(t, name) + Pushed(env.ops, saves, name)
      {
        StepFiles(env.ops, e, saves[1..], t, t1, t2, name, PrototypeNames);
      }
    }
  }

  /** What the function returns: a theme for every name some `saveFile` call receives (bar the
      names `Object.prototype` answers for), holding the files pushed for it in order; and, when
      no name is an array index, the keys in the order the themes are first created. */
  lemma FlattenThemes(env: Env, optionsThemes: Value, themesPath: string, cwd: string)
    requires Flatten(env, optionsThemes, themesPath, cwd).Ok?
    ensures var saves := Events(env.ops, optionsThemes, Utils.Normalize(env.ops, cwd, themesPath), "", []);
      var (themes, keys) := Flatten(env, optionsThemes, themesPath, cwd).value;
      && (forall name :: name in themes <==> Named(saves, name) && name !in PrototypeNames)
      && (forall name :: name in themes ==> themes[name] == Pushed(env.ops, saves, name))
      && ((forall k :: 0 <= k < |saves| ==> !IsArrayIndex(saves[k].themeName)) ==> keys == Created({}, saves))
  {
    var saves := Events(env.ops, optionsThemes, Utils.Normalize(env.ops, cwd, themesPath), "", []);
    var t := Table(map[], []);
    RunFiles(env, t, saves);
    if forall k :: 0 <= k < |saves| ==> !IsArrayIndex(saves[k].themeName) {
      RunOrder(env, t, saves);
      assert t.files.Keys == {};
    }
  }

  // ---------------------------------------------------------------------------------------
  // When the function throws

  /** How one call fails, whatever the table (for a valid table): a truthy file name that is
      not a string, a missing file when the check is on, or a name `Object.prototype` answers
      for. */
  function Fails(env: Env, e: Save): Option<Failure> {
    if !Truthy(e.filename) then None
    else if !e.filename.Str? then Some(TypeError)
    else
      var path := FilePath(env.ops, e.currentPath, e.filename.s);
      if !env.skipFileCheck && !env.fileExists(path) then Some(NotFound(path))
      else if e.themeName in PrototypeNames then Some(TypeError)
      else None
  }

  /** The failure of the first call that fails. */
  function FirstFailure(env: Env, saves: seq<Save>): (r: Option<Failure>)
    ensures r.None? <==> forall k :: 0 <= k < |saves| ==> Fails(env, saves[k]).None?
    ensures r.Some? ==> exists k :: 0 <= k < |saves| && r == Fails(env, saves[k])
                               && (forall j :: 0 <= j < k ==> Fails(env, saves[j]).None?)
    decreases |saves|
  {
    if saves == [] then None
    else if Fails(env, saves[0]).Some? then Fails(env, saves[0])
    else
      var r := FirstFailure(env, saves[1..]);
      assert forall k :: 0 < k < |saves| ==> saves[k] == saves[1..][k - 1];
      if r.Some? then
        var k :| 0 <= k < |saves[1..]| && r == Fails(env, saves[1..][k])
          && forall j :: 0 <= j < k ==> Fails(env, saves[1..][j]).None?;
        assert r == Fails(env, saves[k + 1]);
        assert forall j :: 0 <= j < k + 1 ==> Fails(env, saves[j]).None?;
        r
      else r
  }

  /** On a valid table, one call fails exactly as `Fails` says, and otherwise succeeds. */
  lemma ApplyFails(env: Env, t: Table, e: Save)
    requires Valid(t)
    ensures Apply(env, t, e).Err? <==> Fails(env, e).Some?
    ensures Apply(env, t, e).Err? ==> Apply(env, t, e).error == Fails(env, e).value
  {
  }

  /** The calls fail exactly when one of them fails, with the first failure. */
  lemma {:induction false} RunFails(env: Env, t: Table, saves: seq<Save>)
    requires Valid(t)
    ensures Run(env, t, saves).Err? <==> FirstFailure(env, saves).Some?
    ensures Run(env, t, saves).Err? ==> Run(env, t, saves).error == FirstFailure(env, saves).value
    decreases |saves|
  {
    if saves != [] {
      ApplyFails(env, t, saves[0]);
      if Apply(env, t, saves[0]).Ok? {
        ApplyValid(env, t, saves[0]);
        RunFails(env, Apply(env, t, saves[0]).value, saves[1..]);
      }
    }
  }

  /** The function throws exactly when some `saveFile` call fails, and it throws the first
      failure; with the file check skipped no failure is a missing file, and what
      `fs.existsSync` would answer makes no difference. */
  lemma FlattenFails(env: Env, optionsThemes: Value, themesPath: string, cwd: string)
    ensures var saves := Events(env.ops, optionsThemes, Utils.Normalize(env.ops, cwd, themesPath), "", []);
      && (Flatten(env, optionsThemes, themesPath, cwd).Err? <==> FirstFailure(env, saves).Some?)
      && (Flatten(env, optionsThemes, themesPath, cwd).Err? ==>
            Flatten(env, optionsThemes, themesPath, cwd).error == FirstFailure(env, saves).value)
    ensures env.skipFileCheck && Flatten(env, optionsThemes, themesPath, cwd).Err? ==>
      !Flatten(env, optionsThemes, themesPath, cwd).error.NotFound?
  {
    var saves := Events(env.ops, optionsThemes, Utils.Normalize(env.ops, cwd, themesPath), "", []);
    RunFails(env, Table(map[], []), saves);
  }

  /** With the file check skipped, the existence oracle is never consulted. */
  lemma {:induction false} SkipIgnoresFileSystem(env: Env, fileExists: string -> bool, t: Table, saves: seq<Save>)
    requires env.skipFileCheck
    ensures Run(env, t, saves) == Run(env.(fileExists := fileExists), t, saves)
    decreases |saves|
  {
    if saves != [] {
      assert Apply(env, t, saves[0]) == Apply(env.(fileExists := fileExists), t, saves[0]);
      if Apply(env, t, saves[0]).Ok? {
        SkipIgnoresFileSystem(env, fileExists, Apply(env, t, saves[0]).value, saves[1..]);
      }
    }
  }

  // ---------------------------------------------------------------------------------------
  // Inputs that save nothing

  /** An empty options object yields an empty table and no names. */
  lemma EmptyTree(env: Env, themesPath: string, cwd: string)
    ensures Flatten(env, Obj([]), themesPath, cwd) == Ok((map[], []))
  {
    var base := Utils.Normalize(env.ops, cwd, themesPath);
    assert Events(env.ops, Obj([]), base, "", []) == [];
  }

  /** The walk makes no call for an empty array with nothing inherited, for a value that is
      neither a string, an array nor an object, or for an object with its own `constructor`
      key; so (by `FlattenThemes`) no theme comes from them. */
  lemma NothingSaved(ops: PathOps, dir: string, themeName: string, files: seq<Value>, truthy: bool, entries: seq<(string, Value)>)
    ensures Events(ops, Arr([]), dir, themeName, []) == []
    ensures Events(ops, Prim(truthy), dir, themeName, files) == []
    ensures Lookup(entries, "constructor").Some? ==> Events(ops, Obj(entries), dir, themeName, files) == []
  {
    assert [] + Spread(Arr([])) == [];
  }

  /** An empty-string file name creates its theme (when the name is new and not one of
      `Object.prototype`'s) and adds no file, whatever the file system says. */
  lemma EmptyFileName(env: Env, t: Table, dir: string, name: string)
    requires name !in t.files && name !in PrototypeNames
    ensures Apply(env, t, Save(Str(""), dir, name)) == Ok(Table(t.files[name := []], InsertKey(t.keys, name)))
  {
  }

  // ---------------------------------------------------------------------------------------
  // A route-based reading of the tree

  /** Where a route ends: the value reached, the directory and inherited files it is walked
      with, and the keys passed on the way. */
  datatype Reached = Reached(value: Value, dir: string, files: seq<Value>, names: seq<string>)

  /** Follows a route of entry positions down from `data`. Each step enters a plain object:
      its own string `path` moves the directory, its own file-like `include` extends the
      inherited files, and the step may not take a key the object consumed. */
  function Descend(ops: PathOps, data: Value, dir: string, files: seq<Value>, route: seq<nat>): Option<Reached>
    decreases |route|
  {
    if route == [] then Some(Reached(data, dir, files, []))
    else if !IsPlainObject(data) || route[0] >= |data.entries| then None
    else
      var entry := data.entries[route[0]];
      var b := Enter(ops, data.entries, dir, files);
      if Taken(b, entry.0) then None
      else match Descend(ops, entry.1, b.dir, b.files, route[1..])
        case None => None
        case Some(r) => Some(r.(names := [entry.0] + r.names))
  }

  /** The theme name of the keys passed, each joined on with `Child`. */
  function ThemeName(themeName: string, names: seq<string>): string
    decreases |names|
  {
    if names == [] then themeName else ThemeName(Child(themeName, names[0]), names[1..])
  }

  /** The call `e` is one the route leads to: the route ends at a file name or file list, and
      `e` saves one of the inherited files or one of those names, in that directory, under the
      name the keys spell. */
  predicate Reaches(ops: PathOps, data: Value, dir: string, themeName: string, files: seq<Value>, route: seq<nat>, e: Save) {
    var r := Descend(ops, data, dir, files, route);
    && r.Some? && IsFile(r.value.value)
    && e.currentPath == r.value.dir
    && e.themeName == ThemeName(themeName, r.value.names)
    && e.filename in r.value.files + Spread(r.value.value)
  }

  /** The calls of a leaf are the file names with its directory and theme. */
  lemma LeafMembers(filenames: seq<Value>, dir: string, themeName: string, e: Save)
    ensures e in LeafSaves(filenames, dir, themeName) <==> e.currentPath == dir && e.themeName == themeName && e.filename in filenames
  {
    var s := LeafSaves(filenames, dir, themeName);
    if e.currentPath == dir && e.themeName == themeName && e.filename in filenames {
      var k :| 0 <= k < |filenames| && filenames[k] == e.filename;
      assert s[k] == e;
    }
  }

  /** A call of the first `n` rounds is a call of one of them. */
  lemma {:induction false} EntriesMember(ops: PathOps, data: Value, n: nat, b: Branch, themeName: string, e: Save) returns (k: nat)
    requires data.Obj? && n <= |data.entries|
    requires e in EntriesEvents(ops, data, n, b, themeName)
    ensures k < n && e in EntryEvents(ops, data, k, b, themeName)
    decreases n
  {
    var prev := EntriesEvents(ops, data, n - 1, b, themeName);
    var last := EntryEvents(ops, data, n - 1, b, themeName);
    assert EntriesEvents(ops, data, n, b, themeName) == prev + last;
    if e in prev {
      k := EntriesMember(ops, data, n - 1, b, themeName, e);
    } else {
      k := n - 1;
    }
  }

  /** Each call of round `k` is a call of the first `n` rounds when `k < n`. */
  lemma {:induction false} EntryInEntries(ops: PathOps, data: Value, n: nat, k: nat, b: Branch, themeName: string, e: Save)
    requires data.Obj? && k < n <= |data.entries|
    requires e in EntryEvents(ops, data, k, b, themeName)
    ensures e in EntriesEvents(ops, data, n, b, themeName)
    decreases n
  {
    var prev := EntriesEvents(ops, data, n - 1, b, themeName);
    var last := EntryEvents(ops, data, n - 1, b, themeName);
    assert EntriesEvents(ops, data, n, b, themeName) == prev + last;
    if k < n - 1 {
      EntryInEntries(ops, data, n - 1, k, b, themeName, e);
    }
  }

  /** Every call the walk makes has a route leading to it. */
  lemma {:induction false} EventsRoute(ops: PathOps, data: Value, dir: string, themeName: string, files: seq<Value>, e: Save) returns (route: seq<nat>)
    requires e in Events(ops, data, dir, themeName, files)
    ensures Reaches(ops, data, dir, themeName, files, route, e)
    decreases data
  {
    if IsFile(data) {
      LeafMembers(files + Spread(data), dir, themeName, e);
      route := [];
    } else {
      assert IsPlainObject(data);
      var b := Enter(ops, data.entries, dir, files);
      assert Events(ops, data, dir, themeName, files) == EntriesEvents(ops, data, |data.entries|, b, themeName);
      var k := EntriesMember(ops, data, |data.entries|, b, themeName, e);
      var entry := data.entries[k];
      assert !Taken(b, entry.0);
      var rest := EventsRoute(ops, entry.1, b.dir, Child(themeName, entry.0), b.files, e);
      RouteInto(ops, data, dir, themeName, files, k, rest, e);
      route := [k] + rest;
    }
  }

  /** Every call a route leads to is made by the walk. */
  lemma {:induction false} RouteEvents(ops: PathOps, data: Value, dir: string, themeName: string, files: seq<Value>, route: seq<nat>, e: Save)
    requires Reaches(ops, data, dir, themeName, files, route, e)
    ensures e in Events(ops, data, dir, themeName, files)
    decreases |route|
  {
    if route == [] {
      LeafMembers(files + Spread(data), dir, themeName, e);
    } else {
      assert IsPlainObject(data);
      var b := Enter(ops, data.entries, dir, files);
      var k := RouteOutOf(ops, data, dir, themeName, files, route, e);
      var entry := data.entries[k];
      RouteEvents(ops, entry.1, b.dir, Child(themeName, entry.0), b.files, route[1..], e);
      assert e in EntryEvents(ops, data, k, b, themeName);
      EntryInEntries(ops, data, |data.entries|, k, b, themeName, e);
    }
  }

  /** The walk makes exactly the calls some route leads to: a `saveFile` call happens if and
      only if a route of non-consumed keys ends at a string or array, and the call saves one of
      the files inherited along that route or one of the leaf's names, in the directory the
      route's `path` values lead to, under the theme name its keys spell. */
  lemma EventsReach(ops: PathOps, data: Value, dir: string, themeName: string, files: seq<Value>, e: Save)
    ensures e in Events(ops, data, dir, themeName, files) <==> exists route :: Reaches(ops, data, dir, themeName, files, route, e)
  {
    if e in Events(ops, data, dir, themeName, files) {
      var route := EventsRoute(ops, data, dir, themeName, files, e);
    }
    if exists route :: Reaches(ops, data, dir, themeName, files, route, e) {
      var route :| Reaches(ops, data, dir, themeName, files, route, e);
      RouteEvents(ops, data, dir, themeName, files, route, e);
    }
  }

  /** The calls of the leaf a route reaches form one contiguous run of the walk's calls: one per
      file, the files inherited along the route first (those of the caller, then each `include`
      from the outermost object in), then the leaf's own names, all in the route's directory and
      under the name its keys spell. */
  lemma {:induction false} LeafRun(ops: PathOps, data: Value, dir: string, themeName: string, files: seq<Value>, route: seq<nat>)
    returns (before: seq<Save>, after: seq<Save>)
    requires Descend(ops, data, dir, files, route).Some? && IsFile(Descend(ops, data, dir, files, route).value.value)
    ensures var r := Descend(ops, data, dir, files, route).value;
      && files <= r.files
      && Events(ops, data, dir, themeName, files)
         == before + LeafSaves(r.files + Spread(r.value), r.dir, ThemeName(themeName, r.names)) + after
    decreases |route|
  {
    if route == [] {
      before, after := [], [];
    } else {
      var k := route[0];
      var rest := route[1..];
      assert route == [k] + rest;
      assert IsPlainObject(data) && k < |data.entries|;
      var entry := data.entries[k];
      var b := Enter(ops, data.entries, dir, files);
      assert !Taken(b, entry.0);
      var inner := Descend(ops, entry.1, b.dir, b.files, rest);
      assert inner.Some? && Descend(ops, data, dir, files, route) == Some(inner.value.(names := [entry.0] + inner.value.names))
          && ThemeName(themeName, [entry.0] + inner.value.names) == ThemeName(Child(themeName, entry.0), inner.value.names) by {
        DescendStep(ops, data, dir, themeName, files, k, rest);
      }
      var pre, post := LeafRun(ops, entry.1, b.dir, Child(themeName, entry.0), b.files, rest);
      var r := inner.value;
      var leaf := LeafSaves(r.files + Spread(r.value), r.dir, ThemeName(Child(themeName, entry.0), r.names));
      assert files <= b.files;
      before, after := AroundEntry(ops, data, dir, themeName, files, k, pre, leaf, post);
    }
  }

  /** A run of calls inside the walk of a non-consumed entry is a run of calls of the object's
      walk. */
  lemma AroundEntry(ops: PathOps, data: Value, dir: string, themeName: string, files: seq<Value>, k: nat,
                    pre: seq<Save>, run: seq<Save>, post: seq<Save>)
    returns (before: seq<Save>, after: seq<Save>)
    requires IsPlainObject(data) && k < |data.entries|
    requires var b := Enter(ops, data.entries, dir, files);
      && !Taken(b, data.entries[k].0)
      && Events(ops, data.entries[k].1, b.dir, Child(themeName, data.entries[k].0), b.files) == pre + run + post
    ensures Events(ops, data, dir, themeName, files) == before + run + after
  {
    var b := Enter(ops, data.entries, dir, files);
    var later := EventsAroundEntry(ops, data, dir, themeName, files, k);
    var earlier := EntriesEvents(ops, data, k, b, themeName);
    assert EntryEvents(ops, data, k, b, themeName) == pre + run + post;
    before := earlier + pre;
    after := post + later;
    assert earlier + (pre + run + post) + later == before + run + after;
  }

  /** The walk of a plain object is the rounds before entry `k`, then round `k`, then the rest. */
  lemma EventsAroundEntry(ops: PathOps, data: Value, dir: string, themeName: string, files: seq<Value>, k: nat)
    returns (later: seq<Save>)
    requires IsPlainObject(data) && k < |data.entries|
    ensures var b := Enter(ops, data.entries, dir, files);
      Events(ops, data, dir, themeName, files)
      == EntriesEvents(ops, data, k, b, themeName) + EntryEvents(ops, data, k, b, themeName) + later
  {
    var b := Enter(ops, data.entries, dir, files);
    var upto := EntriesEvents(ops, data, k + 1, b, themeName);
    var whole := EntriesEvents(ops, data, |data.entries|, b, themeName);
    EntriesEventsPrefix(ops, data, k + 1, |data.entries|, b, themeName);
    later := whole[|upto|..];
    assert whole == upto + later;
  }

  /** A route into entry `k` extends to a route from the object. */
  lemma RouteInto(ops: PathOps, data: Value, dir: string, themeName: string, files: seq<Value>, k: nat, rest: seq<nat>, e: Save)
    requires IsPlainObject(data) && k < |data.entries|
    requires var b := Enter(ops, data.entries, dir, files);
      && !Taken(b, data.entries[k].0)
      && Reaches(ops, data.entries[k].1, b.dir, Child(themeName, data.entries[k].0), b.files, rest, e)
    ensures Reaches(ops, data, dir, themeName, files, [k] + rest, e)
  {
    DescendStep(ops, data, dir, themeName, files, k, rest);
  }

  /** A route from the object that reaches a call starts with a non-consumed entry whose value
      the rest of the route reaches the call from. */
  lemma RouteOutOf(ops: PathOps, data: Value, dir: string, themeName: string, files: seq<Value>, route: seq<nat>, e: Save) returns (k: nat)
    requires IsPlainObject(data) && Reaches(ops, data, dir, themeName, files, route, e)
    ensures k < |data.entries|
    ensures var b := Enter(ops, data.entries, dir, files);
      && !Taken(b, data.entries[k].0)
      && Reaches(ops, data.entries[k].1, b.dir, Child(themeName, data.entries[k].0), b.files, route[1..], e)
  {
    assert route != [];
    k := route[0];
    assert route == [k] + route[1..];
    DescendStep(ops, data, dir, themeName, files, k, route[1..]);
  }

  /** One step of a route into a plain object. */
  lemma DescendStep(ops: PathOps, data: Value, dir: string, themeName: string, files: seq<Value>, k: nat, rest: seq<nat>)
    requires IsPlainObject(data) && k < |data.entries|
    ensures var entry := data.entries[k];
      var b := Enter(ops, data.entries, dir, files);
      && (Taken(b, entry.0) ==> Descend(ops, data, dir, files, [k] + rest).None?)
      && (!Taken(b, entry.0) ==>
            match Descend(ops, entry.1, b.dir, b.files, rest)
            case None => Descend(ops, data, dir, files, [k] + rest).None?
            case Some(r) => Descend(ops, data, dir, files, [k] + rest) == Some(r.(names := [entry.0] + r.names)))
    ensures forall names :: ThemeName(themeName, [data.entries[k].0] + names) == ThemeName(Child(themeName, data.entries[k].0), names)
  {
    assert ([k] + rest)[0] == k && ([k] + rest)[1..] == rest;
    forall names ensures ThemeName(themeName, [data.entries[k].0] + names) == ThemeName(Child(themeName, data.entries[k].0), names) {
      assert ([data.entries[k].0] + names)[1..] == names;
    }
  }

  // ---------------------------------------------------------------------------------------
  // A worked case: a `path` and an `include` on the outer branch, arrays at the leaves

  /** The keys a case uses are ordinary theme names: not the reserved `path` and `include`,
      and not `constructor`, which would stop its object from being walked. */
  predicate Ordinary(key: string) {
    key != "path" && key != "include" && key != "constructor"
  }

  /** A top-level object with one ordinary key walks its value under that key's name. */
  lemma SingleEntry(ops: PathOps, base: string, m: string, v: Value)
    requires Ordinary(m)
    ensures Events(ops, Obj([(m, v)]), base, "", []) == Events(ops, v, base, m, [])
  {
    var tree := Obj([(m, v)]);
    var b0 := Enter(ops, tree.entries, base, []);
    assert b0 == Branch(base, [], false, false) by {
      assert Lookup(tree.entries, "path") == None;
      assert Lookup(tree.entries, "include") == None;
    }
    assert IsPlainObject(tree) by {
      assert Lookup(tree.entries, "constructor") == None;
    }
    EntriesFirstRounds(ops, tree, b0, "");
    assert Child("", m) == m;
  }

  /** An object with a string `path`, a file-like `include` and one ordinary key consumes the
      first two and walks the value in the resolved directory, with the included files after
      the inherited ones. */
  lemma PathIncludeBranch(ops: PathOps, base: string, themeName: string, files: seq<Value>, dir: string, inc: Value, l: string, v: Value)
    requires IsFile(inc) && Ordinary(l)
    ensures Events(ops, Obj([("path", Str(dir)), ("include", inc), (l, v)]), base, themeName, files)
      == Events(ops, v, ops.resolve(base, dir), Child(themeName, l), files + Spread(inc))
  {
    var data := Obj([("path", Str(dir)), ("include", inc), (l, v)]);
    var b := Enter(ops, data.entries, base, files);
    assert b == Branch(ops.resolve(base, dir), files + Spread(inc), true, true) by {
      assert Lookup(data.entries, "path") == Some(Str(dir));
      assert Lookup(data.entries, "include") == Some(inc);
    }
    assert IsPlainObject(data) by {
      assert Lookup(data.entries, "constructor") == None;
    }
    EntriesFirstRounds(ops, data, b, themeName);
    assert EntryEvents(ops, data, 0, b, themeName) == [] by {
      assert Taken(b, "path");
    }
    assert EntryEvents(ops, data, 1, b, themeName) == [] by {
      assert Taken(b, "include");
    }
  }

  /** An object with two ordinary keys walks both values in order, in its own directory and
      with its inherited files. */
  lemma TwoEntries(ops: PathOps, d: string, themeName: string, files: seq<Value>, k1: string, v1: Value, k2: string, v2: Value)
    requires Ordinary(k1) && Ordinary(k2)
    ensures Events(ops, Obj([(k1, v1), (k2, v2)]), d, themeName, files)
      == Events(ops, v1, d, Child(themeName, k1), files) + Events(ops, v2, d, Child(themeName, k2), files)
  {
    var data := Obj([(k1, v1), (k2, v2)]);
    var b := Enter(ops, data.entries, d, files);
    assert b == Branch(d, files, false, false) by {
      assert Lookup(data.entries, "path") == None;
      assert Lookup(data.entries, "include") == None;
    }
    assert IsPlainObject(data) by {
      assert Lookup(data.entries, "constructor") == None;
    }
    EntriesFirstRounds(ops, data, b, themeName);
  }

  /** `{[m]: {path: dir, include: [inc], [l]: {[mo]: [], [de]: [own]}}}`. */
  function CaseTree(m: string, dir: string, inc: string, l: string, mo: string, de: string, own: string): Value {
    Obj([(m, Obj([("path", Str(dir)), ("include", Arr([Str(inc)])), (l, Obj([(mo, Arr([])), (de, Arr([Str(own)]))]))]))])
  }

  /** The calls the walk of the worked case makes: both leaves inherit `inc`, resolved in the
      outer `path`, and the empty array still saves the inherited file. */
  lemma CaseEvents(ops: PathOps, base: string, m: string, dir: string, inc: string, l: string, mo: string, de: string, own: string)
    requires Ordinary(m) && Ordinary(l) && Ordinary(mo) && Ordinary(de)
    ensures var d := ops.resolve(base, dir);
      var name := Child(Child(m, l), mo);
      var name' := Child(Child(m, l), de);
      Events(ops, CaseTree(m, dir, inc, l, mo, de, own), base, "", []) ==
        [Save(Str(inc), d, name), Save(Str(inc), d, name'), Save(Str(own), d, name')]
  {
    var d := ops.resolve(base, dir);
    var inherited := [Str(inc)];
    var leaves := Obj([(mo, Arr([])), (de, Arr([Str(own)]))]);
    var main := Obj([("path", Str(dir)), ("include", Arr([Str(inc)])), (l, leaves)]);
    var name, name' := Child(Child(m, l), mo), Child(Child(m, l), de);
    calc {
      Events(ops, CaseTree(m, dir, inc, l, mo, de, own), base, "", []);
    == { SingleEntry(ops, base, m, main); }
      Events(ops, main, base, m, []);
    == { PathIncludeBranch(ops, base, m, [], dir, Arr([Str(inc)]), l, leaves);
         assert [] + Spread(Arr([Str(inc)])) == inherited; }
      Events(ops, leaves, d, Child(m, l), inherited);
    == { TwoEntries(ops, d, Child(m, l), inherited, mo, Arr([]), de, Arr([Str(own)])); }
      Events(ops, Arr([]), d, name, inherited) + Events(ops, Arr([Str(own)]), d, name', inherited);
    == { assert inherited + Spread(Arr([])) == inherited;
         assert inherited + Spread(Arr([Str(own)])) == [Str(inc), Str(own)]; }
      [Save(Str(inc), d, name)] + [Save(Str(inc), d, name'), Save(Str(own), d, name')];
    }
  }

  /** The worked case flattened with the file check skipped: both leaf themes hold the
      inherited file first, resolved in the outer `path`; the theme of the empty array holds
      only that one; the themes are listed in walk order. */
  lemma NestedIncludeCase(ops: PathOps, fileExists: string -> bool, themesPath: string, cwd: string,
                          m: string, dir: string, inc: string, l: string, mo: string, de: string, own: string)
    requires m != "" && Ordinary(m) && Ordinary(l) && Ordinary(mo) && Ordinary(de) && mo != de
    requires inc != "" && own != ""
    ensures var d := ops.resolve(Utils.Normalize(ops, cwd, themesPath), dir);
      var name := Child(Child(m, l), mo);
      var name' := Child(Child(m, l), de);
      Flatten(Env(ops, fileExists, true), CaseTree(m, dir, inc, l, mo, de, own), themesPath, cwd)
        == Ok((map[name := [FilePath(ops, d, inc)], name' := [FilePath(ops, d, inc), FilePath(ops, d, own)]],
               [name, name']))
  {
    var base := Utils.Normalize(ops, cwd, themesPath);
    var d := ops.resolve(base, dir);
    CaseEvents(ops, base, m, dir, inc, l, mo, de, own);
    ChildNames(Child(m, l), mo, de);
    CaseRun(Env(ops, fileExists, true), d, inc, own, Child(Child(m, l), mo), Child(Child(m, l), de));
  }

  /** The three calls of the worked case, in an empty table. */
  lemma CaseRun(env: Env, d: string, inc: string, own: string, name: string, name': string)
    requires env.skipFileCheck && inc != "" && own != "" && name != name'
    requires !IsArrayIndex(name) && name !in PrototypeNames && !IsArrayIndex(name') && name' !in PrototypeNames
    ensures var I, O := FilePath(env.ops, d, inc), FilePath(env.ops, d, own);
      Run(env, Table(map[], []), [Save(Str(inc), d, name), Save(Str(inc), d, name'), Save(Str(own), d, name')])
        == Ok(Table(map[name := [I], name' := [I, O]], [name, name']))
  {
    var I, O := FilePath(env.ops, d, inc), FilePath(env.ops, d, own);
    var t1 := CaseFirst(env, d, inc, name);
    var t2 := CaseSecond(env, d, inc, name, name', t1);
    var t3 := CaseThird(env, d, own, name, name', t2, I);
    RunThree(env, Table(map[], []), [Save(Str(inc), d, name), Save(Str(inc), d, name'), Save(Str(own), d, name')], t1, t2, t3);
  }

  lemma CaseFirst(env: Env, d: string, inc: string, name: string) returns (t1: Table)
    requires env.skipFileCheck && inc != "" && !IsArrayIndex(name) && name !in PrototypeNames
    ensures t1 == Table(map[name := [FilePath(env.ops, d, inc)]], [name])
    ensures Apply(env, Table(map[], []), Save(Str(inc), d, name)) == Ok(t1)
  {
    var t0 := Table(map[], []);
    ApplyNewTheme(env, t0, Save(Str(inc), d, name));
    assert t0.keys + [name] == [name];
    t1 := Table(map[name := [FilePath(env.ops, d, inc)]], [name]);
  }

  lemma CaseSecond(env: Env, d: string, inc: string, name: string, name': string, t1: Table) returns (t2: Table)
    requires env.skipFileCheck && inc != "" && name != name' && !IsArrayIndex(name') && name' !in PrototypeNames
    requires t1 == Table(map[name := [FilePath(env.ops, d, inc)]], [name])
    ensures t2 == Table(map[name := [FilePath(env.ops, d, inc)], name' := [FilePath(env.ops, d, inc)]], [name, name'])
    ensures Apply(env, t1, Save(Str(inc), d, name')) == Ok(t2)
  {
    ApplyNewTheme(env, t1, Save(Str(inc), d, name'));
    assert t1.keys + [name'] == [name, name'];
    t2 := Table(t1.files[name' := [FilePath(env.ops, d, inc)]], [name, name']);
  }

  lemma CaseThird(env: Env, d: string, own: string, name: string, name': string, t2: Table, I: string) returns (t3: Table)
    requires env.skipFileCheck && own != ""
    requires t2 == Table(map[name := [I], name' := [I]], [name, name'])
    ensures t3 == Table(map[name := [I], name' := [I, FilePath(env.ops, d, own)]], [name, name'])
    ensures Apply(env, t2, Save(Str(own), d, name')) == Ok(t3)
  {
    var O := FilePath(env.ops, d, own);
    ApplyKnownTheme(env, t2, Save(Str(own), d, name'));
    assert t2.files[name'] + [O] == [I, O];
    assert t2.files[name' := [I, O]] == map[name := [I], name' := [I, O]];
    t3 := Table(map[name := [I], name' := [I, O]], [name, name']);
  }

  /** A call with a non-empty file name, the check skipped, for a theme not yet there (and
      neither an array index nor a name of `Object.prototype`): the theme is created holding
      the resolved file and listed last. */
  lemma ApplyNewTheme(env: Env, t: Table, e: Save)
    requires env.skipFileCheck && e.filename.Str? && e.filename.s != ""
    requires e.themeName !in t.files && e.themeName !in PrototypeNames && !IsArrayIndex(e.themeName)
    ensures Apply(env, t, e) == Ok(Table(t.files[e.themeName := [FilePath(env.ops, e.currentPath, e.filename.s)]], t.keys + [e.themeName]))
  {
    var empty: seq<string> := [];
    var p := FilePath(env.ops, e.currentPath, e.filename.s);
    assert empty + [p] == [p];
    assert t.files[e.themeName := empty][e.themeName := empty + [p]] == t.files[e.themeName := [p]];
  }

  /** A call with a non-empty file name, the check skipped, for a theme already there: its
      resolved file is appended and the keys stay. */
  lemma ApplyKnownTheme(env: Env, t: Table, e: Save)
    requires env.skipFileCheck && e.filename.Str? && e.filename.s != ""
    requires e.themeName in t.files
    ensures Apply(env, t, e) == Ok(Table(t.files[e.themeName := t.files[e.themeName] + [FilePath(env.ops, e.currentPath, e.filename.s)]], t.keys))
  {
  }

  /** Two children of a non-empty theme name differ when their keys do, and neither is an
      array index or a name `Object.prototype` answers for: each holds a `.`. */
  lemma ChildNames(themeName: string, a: string, b: string)
    requires themeName != "" && a != b
    ensures Child(themeName, a) != Child(themeName, b)
    ensures !IsArrayIndex(Child(themeName, a)) && Child(themeName, a) !in PrototypeNames
    ensures !IsArrayIndex(Child(themeName, b)) && Child(themeName, b) !in PrototypeNames
  {
    var n := |themeName| + 1;
    assert Child(themeName, a)[n..] == a && Child(themeName, b)[n..] == b;
    DottedName(Child(themeName, a), |themeName|);
    DottedName(Child(themeName, b), |themeName|);
  }

  /** A name holding a `.` is no array index and no name of `Object.prototype`. */
  lemma DottedName(name: string, i: nat)
    requires i < |name| && name[i] == '.'
    ensures !IsArrayIndex(name) && name !in PrototypeNames
  {
    assert !IsDigit(name[i]);
    forall p | p in PrototypeNames ensures '.' !in p {
    }
  }

  /** Three calls that each succeed run to the last one's table. */
  lemma RunThree(env: Env, t: Table, saves: seq<Save>, t1: Table, t2: Table, t3: Table)
    requires |saves| == 3
    requires Apply(env, t, saves[0]) == Ok(t1) && Apply(env, t1, saves[1]) == Ok(t2) && Apply(env, t2, saves[2]) == Ok(t3)
    ensures Run(env, t, saves) == Ok(t3)
  {
    var rest := saves[1..];
    assert rest[0] == saves[1] && rest[1..] == saves[2..];
    var last := saves[2..];
    assert last[0] == saves[2] && last[1..] == [];
    assert Run(env, t2, last) == Ok(t3);
    assert Run(env, t1, rest) == Run(env, t2, last);
  }

  /** The first rounds of an object's loop, spelled out. */
  lemma EntriesFirstRounds(ops: PathOps, data: Value, b: Branch, themeName: string)
    requires data.Obj? && 1 <= |data.entries|
    ensures EntriesEvents(ops, data, 1, b, themeName) == EntryEvents(ops, data, 0, b, themeName)
    ensures 2 <= |data.entries| ==>
      EntriesEvents(ops, data, 2, b, themeName) == EntryEvents(ops, data, 0, b, themeName) + EntryEvents(ops, data, 1, b, themeName)
    ensures 3 <= |data.entries| ==>
      EntriesEvents(ops, data, 3, b, themeName)
        == EntryEvents(ops, data, 0, b, themeName) + EntryEvents(ops, data, 1, b, themeName) + EntryEvents(ops, data, 2, b, themeName)
  {
    assert EntriesEvents(ops, data, 0, b, themeName) == [];
  }
}

=== FILE: strings.dfy ===
/**
 * JavaScript string primitives the plugin relies on, over `string` (`seq<char>`):
 * `indexOf` for one character, `includes`, the `/\\/g` backslash replacement,
 * and the notion of a single text line.
 */
module Strings {

  /** The characters JavaScript's regular-expression `.` refuses to match. */
  predicate IsLineTerminator(c: char) {
    c == '\n' || c == '\r' || c == '\U{2028}' || c == '\U{2029}'
  }

  /** `s.indexOf(c, from)` for a one-character search string: the first index at or after `from`
      holding `c`, or -1. */
  function IndexOf(s: string, c: char, from: nat): (r: int)
    ensures r == -1 || (from <= r < |s| && s[r] == c)
    ensures r == -1 <==> forall k :: from <= k < |s| ==> s[k] != c
    ensures r != -1 ==> forall k :: from <= k < r ==> s[k] != c
    decreases |s| - from
  {
    if from >= |s| then -1
    else if s[from] == c then from
    else IndexOf(s, c, from + 1)
  }

  /** `s.includes(sub)`: `sub` occurs somewhere in `s`. */
  predicate Includes(s: string, sub: string)
    decreases |s|
  {
    sub <= s || (|s| > 0 && Includes(s[1..], sub))
  }

  /** An occurrence survives appending text. */
  lemma {:induction false} IncludesAppend(s: string, sub: string, t: string)
    requires Includes(s, sub)
    ensures Includes(s + t, sub)
    decreases |s|
  {
    if sub <= s {
    } else {
      assert (s + t)[1..] == s[1..] + t;
      IncludesAppend(s[1..], sub, t);
    }
  }

  /** An occurrence in a prefix is an occurrence in the whole text. */
  lemma IncludesPrefix(s: string, t: string, sub: string)
    requires s <= t && Includes(s, sub)
    ensures Includes(t, sub)
  {
    assert t == s + t[|s|..];
    IncludesAppend(s, sub, t[|s|..]);
  }

  /** A text includes whatever was just appended to it. */
  lemma {:induction false} IncludesSuffix(s: string, sub: string)
    ensures Includes(s + sub, sub)
    decreases |s|
  {
    if s == [] {
      assert s + sub == sub;
    } else {
      assert (s + sub)[1..] == s[1..] + sub;
      IncludesSuffix(s[1..], sub);
    }
  }

  /** `s.replace(/\\/g, '/')`. */
  function ForwardSlashes(s: string): (r: string)
    ensures |r| == |s|
    ensures '\\' !in r
    ensures forall k :: 0 <= k < |s| && s[k] != '\\' ==> r[k] == s[k]
    ensures forall k :: 0 <= k < |s| && s[k] == '\\' ==> r[k] == '/'
  {
    if s == [] then []
    else [if s[0] == '\\' then '/' else s[0]] + ForwardSlashes(s[1..])
  }

  /** Exactly one line of text: it ends in `\n` and has no other `\n`. */
  predicate IsLine(line: string) {
    |line| > 0 && line[|line| - 1] == '\n' && '\n' !in line[..|line| - 1]
  }

  /** Concatenation of a list of strings. */
  function Concat(parts: seq<string>): string {
    if parts == [] then [] else parts[0] + Concat(parts[1..])
  }

  /** Splits text into lines, each keeping its `\n`; a trailing piece without `\n` is a last line. */
  function SplitLines(s: string): (lines: seq<string>)
    ensures Concat(lines) == s
    decreases |s|
  {
    if s == [] then []
    else
      var nl := IndexOf(s, '\n', 0);
      if nl == -1 then [s]
      else [s[..nl + 1]] + SplitLines(s[nl + 1..])
  }

  /** Lines glued together split back into the same lines. */
  lemma {:induction false} SplitConcatLines(lines: seq<string>)
    requires forall k :: 0 <= k < |lines| ==> IsLine(lines[k])
    ensures SplitLines(Concat(lines)) == lines
  {
    if lines != [] {
      var l := lines[0];
      var rest := Concat(lines[1..]);
      var s := l + rest;
      assert IndexOf(s, '\n', 0) == |l| - 1 by {
        forall k | 0 <= k < |l| - 1 ensures s[k] != '\n' {
          assert s[k] == l[..|l| - 1][k];
        }
      }
      assert s[..|l|] == l;
      assert s[|l|..] == rest;
      SplitConcatLines(lines[1..]);
    }
  }
}

=== FILE: utils.dfy ===
/**
 * The text and path helpers of `src/utils.js`: import-path normalisation, the `.less`
 * extension rule, `@import` line building, line removal and insertion at an offset,
 * the scan that strips `import '...less';` lines, append-if-absent of `@import` lines,
 * and the per-theme temp-file records.
 */
module Utils {
  import opened Wrappers
  import opened Strings
  import opened NodePath

  // ---------------------------------------------------------------------------------------
  // Paths

  /** `utils.normalize(dir, filePath)`: the path from `dir` to `filePath` with forward slashes,
      given a `./` prefix unless it already starts with `.` or is absolute. */
  function Normalize(ops: PathOps, dir: string, filePath: string): (r: string)
    ensures '\\' !in r
    ensures |r| > 0 && (r[0] == '.' || r[0] == '/')
    ensures var rel := ForwardSlashes(ops.relative(dir, filePath));
      && (r == rel || r == "./" + rel)
      && (r == rel <==> |rel| > 0 && (rel[0] == '.' || rel[0] == '/'))
  {
    var path := ForwardSlashes(ops.relative(dir, filePath));
    if (|path| == 0 || path[0] != '.') && !IsAbsolute(path) then "./" + path else path
  }

  /** `utils.addLessExtension(path)`: `.less` is appended when there is no extension, `less`
      when the name ends in a bare `.`; any other extension is kept. */
  function AddLessExtension(path: string): (r: string)
    ensures path <= r
    ensures Extname(path) != "" && Extname(path) != "." ==> r == path
    ensures r != path ==> r[|path|..] == ".less" || r[|path|..] == "less"
    ensures Extname(path) == "" ==> r == path + ".less"
    ensures Extname(path) == "." ==> r == path + "less"
  {
    var extension := Extname(path);
    if extension == "" then path + ".less"
    else if extension == "." then path + "less"
    else path
  }

  /** A name that does not end in `/` comes out of `AddLessExtension` as a `.less` file whenever
      it had no extension or a bare `.`. */
  lemma AddLessExtensionGivesLess(path: string)
    requires path != [] && path[|path| - 1] != '/'
    requires Extname(path) == "" || Extname(path) == "."
    ensures Extname(AddLessExtension(path)) == ".less"
  {
    if Extname(path) == "" {
      ExtnameAppendDotted(path, ".less");
    } else {
      ExtnameExtendDot(path, "less");
      DotThenLess();
    }
  }

  lemma DotThenLess()
    ensures "." + "less" == ".less"
  {
  }

  /** Adding the extension twice is adding it once, for every name that does not end in `/`. */
  lemma AddLessExtensionIdempotent(path: string)
    requires path != [] && path[|path| - 1] != '/'
    ensures AddLessExtension(AddLessExtension(path)) == AddLessExtension(path)
  {
    var ext := Extname(path);
    if ext == "" || ext == "." {
      AddLessExtensionGivesLess(path);
    }
  }

  /** Why idempotence needs a non-empty name: `''` becomes the dot-file `.less`, whose
      extension is empty, so a second pass appends again. */
  lemma AddLessExtensionEmptyName()
    ensures AddLessExtension("") == ".less"
    ensures AddLessExtension(".less") == ".less" + ".less"
  {
    assert Extname("") == "";
    ExtnameDotFile(".less");
  }

  // ---------------------------------------------------------------------------------------
  // @import lines

  const NonReferenceHead := "@import (less) \""
  const ReferenceHead := "@import (less, reference) \""
  const ImportTail := "\";\n"

  /** The `@import` line for an already normalised path. */
  function ImportText(isReference: bool, p: string): string {
    (if isReference then ReferenceHead else NonReferenceHead) + p + ImportTail
  }

  /** `utils.buildLessImport(dir, path, isReference = false)`: `@import (less) "<path>";` or
      `@import (less, reference) "<path>";`, then a `\n`. (`BuildLessImportParses` reads it
      back.) */
  function BuildLessImport(ops: PathOps, dir: string, path: string, isReference: bool): string {
    ImportText(isReference, Normalize(ops, dir, path))
  }

  /** The built line carries the reference flag and the normalised path, and it is one line
      whenever the path has no `\n`. */
  lemma BuildLessImportParses(ops: PathOps, dir: string, path: string, isReference: bool)
    ensures ParseLessImport(BuildLessImport(ops, dir, path, isReference)) == Some((isReference, Normalize(ops, dir, path)))
    ensures '\n' !in Normalize(ops, dir, path) ==> IsLine(BuildLessImport(ops, dir, path, isReference))
  {
    ImportTextParses(isReference, Normalize(ops, dir, path));
  }

  /** `ParseLessImport` reads back what `ImportText` writes. */
  lemma ImportTextParses(isReference: bool, p: string)
    ensures ParseLessImport(ImportText(isReference, p)) == Some((isReference, p))
    ensures '\n' !in p ==> IsLine(ImportText(isReference, p))
  {
    if isReference {
      ParseReferenceImport(p);
    } else {
      ParseNonReferenceImport(p);
    }
    ImportTextIsLine(isReference, p);
  }

  /** Reads back a line written by `ImportText`: the reference flag and the quoted path. */
  function ParseLessImport(line: string): Option<(bool, string)> {
    var tail := |ImportTail|;
    if NonReferenceHead <= line && |line| >= |NonReferenceHead| + tail && line[|line| - tail..] == ImportTail then
      Some((false, line[|NonReferenceHead|..|line| - tail]))
    else if ReferenceHead <= line && |line| >= |ReferenceHead| + tail && line[|line| - tail..] == ImportTail then
      Some((true, line[|ReferenceHead|..|line| - tail]))
    else None
  }

  lemma ParseNonReferenceImport(p: string)
    ensures ParseLessImport(ImportText(false, p)) == Some((false, p))
  {
    var line := ImportText(false, p);
    assert line[..|NonReferenceHead|] == NonReferenceHead;
    assert line[|line| - 3..] == ImportTail;
    assert line[|NonReferenceHead|..|line| - 3] == p;
  }

  lemma ParseReferenceImport(p: string)
    ensures ParseLessImport(ImportText(true, p)) == Some((true, p))
  {
    var line := ImportText(true, p);
    assert line[13] == ',';
    assert !(NonReferenceHead <= line) by {
      assert NonReferenceHead[13] == ')';
    }
    assert line[..|ReferenceHead|] == ReferenceHead;
    assert line[|line| - 3..] == ImportTail;
    assert line[|ReferenceHead|..|line| - 3] == p;
  }

  lemma ImportTextIsLine(isReference: bool, p: string)
    ensures '\n' !in p ==> IsLine(ImportText(isReference, p))
  {
    var line := ImportText(isReference, p);
    var head := if isReference then ReferenceHead else NonReferenceHead;
    if '\n' !in p {
      assert line[..|line| - 1] == head + p + "\";";
      assert '\n' !in head;
    }
  }

  // ---------------------------------------------------------------------------------------
  // Lines at an offset

  /** `s.slice(0, i)` and `s.slice(i)` for a non-negative `i`: both clamp at the length. */
  function Take(s: string, i: nat): string {
    if i <= |s| then s[..i] else s
  }

  function Drop(s: string, i: nat): string {
    if i <= |s| then s[i..] else []
  }

  /** `utils.removeLine(content, index)`: the text before `index` followed by the text after the
      next `\n` at or after `index`. When there is none, `indexOf` gives -1, and the whole text
      follows the prefix (`RemoveLineWithoutNewline`). */
  function RemoveLine(content: string, index: nat): string
  {
    var next := IndexOf(content, '\n', index);
    Take(content, index) + content[next + 1..]
  }

  /** Removing a line never touches the text before `index`. */
  lemma RemoveLineKeepsPrefix(content: string, index: nat)
    requires index <= |content|
    ensures index <= |RemoveLine(content, index)| && RemoveLine(content, index)[..index] == content[..index]
  {
    if IndexOf(content, '\n', index) == -1 {
      RemoveLineWithoutNewline(content, index);
    } else {
      RemoveLineCutsOneLine(content, index);
    }
  }

  /** `utils.addLine(content, line, index)`. */
  function AddLine(content: string, line: string, index: nat): (r: string)
    ensures |r| == |content| + |line|
    ensures index <= |content| ==>
      (r[..index] == content[..index] && r[index..index + |line|] == line && r[index + |line|..] == content[index..])
  {
    Take(content, index) + line + Drop(content, index)
  }

  /** Removing the line just inserted at `index` restores the text. */
  lemma RemoveAddLine(content: string, line: string, index: nat)
    requires index <= |content| && IsLine(line)
    ensures RemoveLine(AddLine(content, line, index), index) == content
  {
    var s := AddLine(content, line, index);
    var nl := index + |line| - 1;
    forall k | index <= k < nl ensures s[k] != '\n' {
      assert s[k] == line[..|line| - 1][k - index];
    }
    assert s[nl] == line[|line| - 1];
    assert IndexOf(s, '\n', index) == nl;
    assert s[nl + 1..] == content[index..];
    assert s[..index] + s[nl + 1..] == content[..index] + content[index..];
  }

  /** When a `\n` follows `index`, `RemoveLine` cuts exactly the line from `index` through that
      `\n`. */
  lemma RemoveLineCutsOneLine(content: string, index: nat)
    requires index <= |content| && IndexOf(content, '\n', index) >= 0
    ensures var nl := IndexOf(content, '\n', index);
      && RemoveLine(content, index) == content[..index] + content[nl + 1..]
      && IsLine(content[index..nl + 1])
  {
    var nl := IndexOf(content, '\n', index);
    var cut := content[index..nl + 1];
    assert cut[|cut| - 1] == '\n';
    var body := cut[..|cut| - 1];
    forall k | 0 <= k < |body| ensures body[k] != '\n' {
      assert body[k] == content[index + k];
    }
  }

  /** With no `\n` at or after `index`, `RemoveLine` removes nothing: it repeats the whole text
      after the kept prefix. */
  lemma RemoveLineWithoutNewline(content: string, index: nat)
    requires IndexOf(content, '\n', index) == -1
    ensures RemoveLine(content, index) == Take(content, index) + content
    ensures |RemoveLine(content, index)| == |content| + (if index <= |content| then index else |content|)
  {
    assert content[0..] == content;
  }

  /** The single-quoted `import '<path>';` line `utils.addJsImport` writes. */
  function JsImportLine(ops: PathOps, dir: string, path: string): string {
    "import '" + Normalize(ops, dir, path) + "';\n"
  }

  /** `utils.addJsImport(content, dir, path, index)`: inserts one import line at `index`; an
      `index` past the end appends it, as `slice` clamps. */
  function AddJsImport(ops: PathOps, content: string, dir: string, path: string, index: nat): (r: string)
    ensures |r| == |content| + |JsImportLine(ops, dir, path)|
    ensures index <= |content| ==>
      r[..index] == content[..index] && r[index..] == JsImportLine(ops, dir, path) + content[index..]
    ensures index > |content| ==> r == content + JsImportLine(ops, dir, path)
    ensures index <= |content| && '\n' !in Normalize(ops, dir, path) ==> RemoveLine(r, index) == content
  {
    var line := JsImportLine(ops, dir, path);
    var r := AddLine(content, line, index);
    assert index <= |content| ==> r[index..] == line + content[index..] by {
      if index <= |content| {
        AddLineAt(content, line, index);
      }
    }
    assert index <= |content| && '\n' !in Normalize(ops, dir, path) ==> RemoveLine(r, index) == content by {
      if index <= |content| && '\n' !in Normalize(ops, dir, path) {
        JsImportLineIsLine(ops, dir, path);
        RemoveAddLine(content, line, index);
      }
    }
    r
  }

  /** Inserting at `index` puts the line in front of the text from `index` on. */
  lemma AddLineAt(content: string, line: string, index: nat)
    requires index <= |content|
    ensures AddLine(content, line, index)[index..] == line + content[index..]
  {
    assert AddLine(content, line, index) == content[..index] + (line + content[index..]);
  }

  lemma JsImportLineIsLine(ops: PathOps, dir: string, path: string)
    ensures '\n' !in Normalize(ops, dir, path) ==> IsLine(JsImportLine(ops, dir, path))
  {
    var line := JsImportLine(ops, dir, path);
    assert line[..|line| - 1] == "import '" + Normalize(ops, dir, path) + "';";
  }

  // ---------------------------------------------------------------------------------------
  // The scan of stripLessImports

  predicate IsQuote(c: char) {
    c == '\'' || c == '"'
  }

  /** The first quote at or after `k`, or `|s|` when there is none. */
  function FirstQuote(s: string, k: nat): (e: nat)
    requires k <= |s|
    ensures k <= e <= |s|
    ensures e < |s| ==> IsQuote(s[e])
    ensures forall j :: k <= j < e ==> !IsQuote(s[j])
    decreases |s| - k
  {
    if k == |s| || IsQuote(s[k]) then k else FirstQuote(s, k + 1)
  }

  /** `w` occurs in `s` at `p`, compared from the `i`-th character of `w` on. */
  predicate LitFrom(s: string, p: nat, w: string, i: nat)
    requires i <= |w|
    decreases |w| - i
  {
    if i == |w| then p + i <= |s| else p + i < |s| && s[p + i] == w[i] && LitFrom(s, p, w, i + 1)
  }

  /** `w` occurs in `s` at `p`. */
  predicate Lit(s: string, p: nat, w: string) {
    LitFrom(s, p, w, 0)
  }

  /** `Lit` is the slice comparison `s.slice(p, p + |w|) === w`. */
  lemma {:induction false} LitIsSlice(s: string, p: nat, w: string)
    ensures Lit(s, p, w) <==> p + |w| <= |s| && s[p..p + |w|] == w
  {
    LitFromIsSlice(s, p, w, 0);
    if p + |w| <= |s| && s[p..p + |w|] == w {
      assert s[p + 0..p + |w|] == w[0..];
    }
  }

  lemma {:induction false} LitFromIsSlice(s: string, p: nat, w: string, i: nat)
    requires i <= |w|
    ensures LitFrom(s, p, w, i) <==> p + |w| <= |s| && s[p + i..p + |w|] == w[i..]
    decreases |w| - i
  {
    if i < |w| {
      LitFromIsSlice(s, p, w, i + 1);
      if p + |w| <= |s| && s[p + i..p + |w|] == w[i..] {
        assert s[p + i] == s[p + i..p + |w|][0];
        assert s[p + i + 1..p + |w|] == s[p + i..p + |w|][1..];
      }
      if LitFrom(s, p, w, i) {
        assert s[p + i..p + |w|] == [s[p + i]] + s[p + i + 1..p + |w|];
        assert w[i..] == [w[i]] + w[i + 1..];
      }
    }
  }

  /** Where a match of `/import ['"][^'"]+.less['"];/` that starts at `p` ends, if one does.
      `[^'"]+` runs to the first quote `e` after the opening one and gives back characters
      from the right; the unescaped `.` takes any character but a line terminator. It either
      takes the quote at `e` itself (then `less`, a quote and `;` follow it), or the character
      five before `e` (then `less` ends at `e` and `;` follows). */
  function LessImportEnd(s: string, p: nat): (r: Option<nat>)
    requires p <= |s|
    ensures r.Some? ==>
      (&& p + 16 <= r.value <= |s|
       && Lit(s, p, "import ") && IsQuote(s[p + 7])
       && Lit(s, r.value - 6, "less") && IsQuote(s[r.value - 2]) && s[r.value - 1] == ';')
  {
    if p + 8 > |s| || !Lit(s, p, "import ") || !IsQuote(s[p + 7]) then None
    else
      var e := FirstQuote(s, p + 8);
      if e == |s| then None
      else if e >= p + 9 && e + 7 <= |s| && Lit(s, e + 1, "less") && IsQuote(s[e + 5]) && s[e + 6] == ';' then
        Some(e + 7)
      else if e >= p + 14 && !IsLineTerminator(s[e - 5]) && Lit(s, e - 4, "less") && e + 2 <= |s| && s[e + 1] == ';' then
        Some(e + 2)
      else None
  }

  /** A match: its start (`match.index`) and end (the regex's next `lastIndex`). */
  datatype Found = Found(index: nat, end: nat)

  /** `HAS_LESS_IMPORT_IN_JS.exec(s)` with `lastIndex == from`: the leftmost match at or after
      `from`; none when `from` is past the end. (`FindLessImportLeftmost` states what it finds.) */
  function FindLessImport(s: string, from: nat): (r: Option<Found>)
    ensures r.Some? ==> from <= r.value.index && r.value.index + 16 <= r.value.end <= |s|
    decreases |s| - from
  {
    if from > |s| then None
    else match LessImportEnd(s, from)
      case Some(end) => Some(Found(from, end))
      case None => if from == |s| then None else FindLessImport(s, from + 1)
  }

  /** `FindLessImport` finds a match, and no match starts between `from` and it; when it finds
      nothing, no match starts at or after `from`. */
  lemma {:induction false} FindLessImportLeftmost(s: string, from: nat)
    ensures var r := FindLessImport(s, from);
      && (r.Some? ==> LessImportEnd(s, r.value.index) == Some(r.value.end))
      && (r.Some? ==> forall q :: from <= q < r.value.index ==> LessImportEnd(s, q).None?)
      && (r.None? ==> forall q :: from <= q <= |s| ==> LessImportEnd(s, q).None?)
    decreases |s| - from
  {
    if from < |s| && LessImportEnd(s, from).None? {
      FindLessImportLeftmost(s, from + 1);
      var r := FindLessImport(s, from + 1);
      assert FindLessImport(s, from) == r;
      if r.Some? {
        forall q | from <= q < r.value.index ensures LessImportEnd(s, q).None? {
          if q == from {
          }
        }
      } else {
        forall q | from <= q <= |s| ensures LessImportEnd(s, q).None? {
          if q == from {
          }
        }
      }
    }
  }

  /** A match at `index` with none between `from` and it is what `FindLessImport` returns. */
  lemma {:induction false} FindLessImportAt(s: string, from: nat, index: nat)
    requires from <= index <= |s| && LessImportEnd(s, index).Some?
    requires forall q :: from <= q < index ==> LessImportEnd(s, q).None?
    ensures FindLessImport(s, from) == Some(Found(index, LessImportEnd(s, index).value))
    decreases index - from
  {
    if from < index {
      FindLessImportAt(s, from + 1, index);
    }
  }

  /** The quoted path of a match, `match[0].match(IMPORT_FILE)[1]`. On a match text the capture
      regex fails at no earlier quote and takes the same split as the scan, so the capture is
      everything between the opening quote and the closing quote. */
  function CapturedPath(s: string, m: Found): string
    requires m.index + 8 <= m.end - 2 <= |s|
  {
    s[m.index + 8..m.end - 2]
  }

  /** The path `stripLessImports` records for a match, `utils.normalize('', captured)`. */
  function ImportedPath(ops: PathOps, s: string, m: Found): string
    requires m.index + 8 <= m.end - 2 <= |s|
  {
    Normalize(ops, "", CapturedPath(s, m))
  }

  /** The state of the loop of `stripLessImports`: the text, the regex's `lastIndex`, the paths. */
  datatype Scan = Scan(content: string, lastIndex: nat, paths: seq<string>)

  /** One turn of the loop as written: find the next match from `lastIndex`, record its path,
      remove its line with `RemoveLine`, and leave `lastIndex` at the end of the match although
      the text is now different. */
  function StripStep(ops: PathOps, st: Scan): Option<Scan> {
    match FindLessImport(st.content, st.lastIndex)
    case None => None
    case Some(m) =>
      Some(Scan(RemoveLine(st.content, m.index), m.end, st.paths + [ImportedPath(ops, st.content, m)]))
  }

  /** The state after `k` turns of the loop as written, or `None` once the loop has exited. */
  function StripIterate(ops: PathOps, st: Scan, k: nat): Option<Scan>
  {
    Iterate(x => StripStep(ops, x), st, k)
  }

  /** `k` turns of a loop whose turn is `step`, or `None` once a turn has found nothing. */
  function Iterate<S>(step: S -> Option<S>, st: S, k: nat): Option<S>
  {
    if k == 0 then Some(st)
    else
      var prev := Iterate(step, st, k - 1);
      if prev.None? then None else step(prev.value)
  }

  /** `n` spaces. */
  function Blanks(n: nat): (r: string)
    ensures |r| == n && forall k :: 0 <= k < n ==> r[k] == ' '
  {
    if n == 0 then [] else [' '] + Blanks(n - 1)
  }

  const LastLineImport := "import 'a.less';"

  /** The last-line import matches wherever it stands, whatever follows it, and its captured
      path is `a.less`. */
  lemma ImportMatches(pre: string, post: string)
    ensures var s := pre + LastLineImport + post;
      && LessImportEnd(s, |pre|) == Some(|pre| + 16)
      && CapturedPath(s, Found(|pre|, |pre| + 16)) == "a.less"
  {
    var s := pre + LastLineImport + post;
    assert s[|pre|..|pre| + 16] == LastLineImport;
    MatchAt(s, |pre|);
  }

  /** Wherever the text of the last-line import stands, a match of it starts there. */
  lemma MatchAt(s: string, n: nat)
    requires n + 16 <= |s| && s[n..n + 16] == LastLineImport
    ensures LessImportEnd(s, n) == Some(n + 16) && CapturedPath(s, Found(n, n + 16)) == "a.less"
  {
    ImportOpening(s, n);
    ImportClosing(s, n);
    assert FirstQuote(s, n + 8) == n + 14;
    assert s[n + 8..n + 14] == s[n..n + 16][8..14];
  }

  /** Where the last-line import stands, `import ` and a quote open the match. */
  lemma ImportOpening(s: string, n: nat)
    requires n + 16 <= |s| && s[n..n + 16] == LastLineImport
    ensures Lit(s, n, "import ") && IsQuote(s[n + 7])
  {
    assert s[n..n + 7] == s[n..n + 16][..7] == "import ";
    LitIsSlice(s, n, "import ");
    assert s[n + 7] == s[n..n + 16][7];
  }

  /** Where the last-line import stands, the first quote after the opening one is the closing one,
      `less` ends there and `;` follows, and the character before `less` is a dot. */
  lemma ImportClosing(s: string, n: nat)
    requires n + 16 <= |s| && s[n..n + 16] == LastLineImport
    ensures forall j :: n + 8 <= j < n + 14 ==> !IsQuote(s[j])
    ensures IsQuote(s[n + 14]) && s[n + 15] == ';' && s[n + 9] == '.'
    ensures Lit(s, n + 10, "less") && !Lit(s, n + 15, "less")
  {
    forall j | n + 8 <= j < n + 14 ensures !IsQuote(s[j]) {
      assert s[j] == s[n..n + 16][j - n];
    }
    assert s[n + 14] == s[n..n + 16][14];
    assert s[n + 15] == s[n..n + 16][15];
    assert s[n + 9] == s[n..n + 16][9];
    forall j | n + 10 <= j < n + 14 ensures s[j] == "less"[j - n - 10] {
      assert s[j] == s[n..n + 16][j - n];
    }
    assert s[n + 10..n + 14] == "less";
    LitIsSlice(s, n + 10, "less");
  }


  /** From any `lastIndex` up to the blanks' end, the scan finds the import after the blanks. */
  lemma FindAfterBlanks(n: nat, lastIndex: nat)
    requires n >= 16 && lastIndex <= n
    ensures FindLessImport(Blanks(n) + LastLineImport, lastIndex) == Some(Found(n, n + 16))
  {
    var s := Blanks(n) + LastLineImport;
    forall q | lastIndex <= q < n ensures LessImportEnd(s, q).None? {
      assert s[q] == ' ';
    }
    assert LessImportEnd(s, n) == Some(n + 16) by {
      ImportMatches(Blanks(n), "");
      assert Blanks(n) + LastLineImport + "" == s;
    }
    FindLessImportAt(s, lastIndex, n);
  }

  /** The import is the last line and has no `\n`, so `RemoveLine` puts the whole text before
      it in front of it again. */
  lemma RemoveLastLine(pre: string)
    ensures RemoveLine(pre + LastLineImport, |pre|) == pre + pre + LastLineImport
  {
    var s := pre + LastLineImport;
    var n := |pre|;
    NoNewlineInImport(pre);
    assert Take(s, n) == pre;
    assert s[0..] == s;
  }

  lemma ImportHasNoNewline()
    ensures '\n' !in LastLineImport
  {
  }

  /** The last-line import holds no `\n`. */
  lemma NoNewlineInImport(pre: string)
    ensures IndexOf(pre + LastLineImport, '\n', |pre|) == -1
  {
    var s := pre + LastLineImport;
    var n := |pre|;
    ImportHasNoNewline();
    forall k | n <= k < |s| ensures s[k] != '\n' {
      assert s[k] == LastLineImport[k - n];
    }
  }

  lemma RemoveLastLineImport(n: nat)
    ensures RemoveLine(Blanks(n) + LastLineImport, n) == Blanks(2 * n) + LastLineImport
  {
    RemoveLastLine(Blanks(n));
    assert Blanks(n) + Blanks(n) == Blanks(2 * n);
  }

  lemma CapturedAfterBlanks(n: nat)
    ensures CapturedPath(Blanks(n) + LastLineImport, Found(n, n + 16)) == "a.less"
  {
    ImportMatches(Blanks(n), "");
    assert Blanks(n) + LastLineImport + "" == Blanks(n) + LastLineImport;
  }

  /** A state of the loop whose text is blanks followed by the last-line import, with at least as
      many blanks as the import is long and `lastIndex` inside the blanks. */
  predicate Pumping(st: Scan) {
    |st.content| >= 32 && st.lastIndex + 16 <= |st.content|
    && st.content == Blanks(|st.content| - 16) + LastLineImport
  }

  /** From a pumping state the loop as written finds the import, and `RemoveLine` (finding no
      `\n`) puts the whole text after the blanks: the next state pumps again, and the same path
      is recorded once more (`StripStepOnBlanks` gives the exact next state). */
  lemma StripStepRepeats(ops: PathOps, st: Scan)
    requires Pumping(st)
    ensures StripStep(ops, st).Some? && Pumping(StripStep(ops, st).value)
    ensures StripStep(ops, st).value.paths == st.paths + [Normalize(ops, "", "a.less")]
  {
    var n := |st.content| - 16;
    var next := Scan(Blanks(2 * n) + LastLineImport, n + 16, st.paths + [Normalize(ops, "", "a.less")]);
    assert StripStep(ops, st) == Some(next) by {
      assert st == Scan(Blanks(n) + LastLineImport, st.lastIndex, st.paths);
      StripStepOnBlanks(ops, n, st.lastIndex, st.paths);
    }
    assert Pumping(next) by {
      PumpingDoubled(n, st.paths + [Normalize(ops, "", "a.less")]);
    }
  }

  /** One turn of the loop as written on blanks followed by the last-line import. */
  lemma StripStepOnBlanks(ops: PathOps, n: nat, lastIndex: nat, paths: seq<string>)
    requires n >= 16 && lastIndex <= n
    ensures StripStep(ops, Scan(Blanks(n) + LastLineImport, lastIndex, paths))
         == Some(Scan(Blanks(2 * n) + LastLineImport, n + 16, paths + [Normalize(ops, "", "a.less")]))
  {
    var s := Blanks(n) + LastLineImport;
    var m := Found(n, n + 16);
    assert FindLessImport(s, lastIndex) == Some(m) by {
      FindAfterBlanks(n, lastIndex);
    }
    StripStepFound(ops, Scan(s, lastIndex, paths), m);
    assert RemoveLine(s, n) == Blanks(2 * n) + LastLineImport by {
      RemoveLastLineImport(n);
    }
    assert ImportedPath(ops, s, m) == Normalize(ops, "", "a.less") by {
      CapturedAfterBlanks(n);
    }
  }

  /** Doubling the blanks of a pumping text pumps again, with `lastIndex` just after the import. */
  lemma PumpingDoubled(n: nat, paths: seq<string>)
    requires n >= 16
    ensures Pumping(Scan(Blanks(2 * n) + LastLineImport, n + 16, paths))
  {
    assert |Blanks(2 * n) + LastLineImport| == 2 * n + 16;
  }

  /** A turn of the loop as written, once the match it finds is known. */
  lemma StripStepFound(ops: PathOps, st: Scan, m: Found)
    requires FindLessImport(st.content, st.lastIndex) == Some(m)
    ensures StripStep(ops, st) == Some(Scan(RemoveLine(st.content, m.index), m.end, st.paths + [ImportedPath(ops, st.content, m)]))
  {
  }

  /** FINDING, as written: on `Blanks(16) + "import 'a.less';"` the `while` loop of
      `stripLessImports` never exits. After any number of turns the loop still finds a match. */
  lemma StripLessImportsAsWrittenNeverHalts(ops: PathOps, k: nat)
    ensures StripIterate(ops, Scan(Blanks(16) + LastLineImport, 0, []), k).Some?
  {
    LoopKeepsFinding(ops, Scan(Blanks(16) + LastLineImport, 0, []), k);
  }

  /** No match starts where there is no `i`: with none at or after `from`, nothing is found. */
  lemma {:induction false} FindNothingWithoutI(s: string, from: nat)
    requires forall q :: from <= q < |s| ==> s[q] != 'i'
    ensures FindLessImport(s, from).None?
    decreases |s| - from
  {
    if from < |s| {
      FindNothingWithoutI(s, from + 1);
    }
  }

  /** With no `i` before it, the last-line import is the first match. */
  lemma FindAfterPrefix(pre: string)
    requires forall q :: 0 <= q < |pre| ==> pre[q] != 'i'
    ensures var s := pre + LastLineImport;
      && FindLessImport(s, 0) == Some(Found(|pre|, |pre| + 16))
      && CapturedPath(s, Found(|pre|, |pre| + 16)) == "a.less"
  {
    var s := pre + LastLineImport;
    ImportMatches(pre, "");
    assert pre + LastLineImport + "" == s;
    forall q | 0 <= q < |pre| ensures LessImportEnd(s, q).None? {
      assert s[q] == pre[q];
    }
    FindLessImportAt(s, 0, |pre|);
  }

  /** Past its first character the last-line import holds no `i`. */
  lemma NoIAfterImportStart(pre: string, k: nat)
    requires |pre| < k < |pre| + 16
    ensures (pre + LastLineImport)[k] != 'i'
  {
    assert (pre + LastLineImport)[k] == LastLineImport[k - |pre|];
  }

  /** One turn of the loop as written on a text whose last line is the import, with no `i`
      before it. */
  lemma StripStepAfterPrefix(ops: PathOps, pre: string, paths: seq<string>)
    requires forall q :: 0 <= q < |pre| ==> pre[q] != 'i'
    ensures StripStep(ops, Scan(pre + LastLineImport, 0, paths))
         == Some(Scan(pre + pre + LastLineImport, |pre| + 16, paths + [Normalize(ops, "", "a.less")]))
  {
    var s := pre + LastLineImport;
    var m := Found(|pre|, |pre| + 16);
    assert FindLessImport(s, 0) == Some(m) by {
      FindAfterPrefix(pre);
    }
    StripStepFound(ops, Scan(s, 0, paths), m);
    assert RemoveLine(s, |pre|) == pre + pre + LastLineImport by {
      RemoveLastLine(pre);
    }
    assert ImportedPath(ops, s, m) == Normalize(ops, "", "a.less") by {
      FindAfterPrefix(pre);
    }
  }

  /** FINDING, as written: when the text before the last-line import has no `i` and is shorter
      than the import, the loop finds the import once, `RemoveLine` doubles the text before it,
      and `lastIndex` then lies past the kept import: the loop exits after one turn, the import
      still in the text. (With 16 or more blanks it never exits, `StripLessImportsAsWrittenNeverHalts`.) */
  lemma StripAsWrittenKeepsLastLineImport(ops: PathOps, pre: string)
    requires |pre| < 16 && forall q :: 0 <= q < |pre| ==> pre[q] != 'i'
    ensures StripIterate(ops, Scan(pre + LastLineImport, 0, []), 1)
         == Some(Scan(pre + pre + LastLineImport, |pre| + 16, [Normalize(ops, "", "a.less")]))
    ensures StripIterate(ops, Scan(pre + LastLineImport, 0, []), 2).None?
  {
    var t := pre + pre + LastLineImport;
    var next := Scan(t, |pre| + 16, [Normalize(ops, "", "a.less")]);
    assert StripStep(ops, Scan(pre + LastLineImport, 0, [])) == Some(next) by {
      StripStepAfterPrefix(ops, pre, []);
      assert [] + [Normalize(ops, "", "a.less")] == [Normalize(ops, "", "a.less")];
    }
    assert StripStep(ops, next).None? by {
      forall q | |pre| + 16 <= q < |t| ensures t[q] != 'i' {
        NoIAfterImportStart(pre + pre, q);
      }
      FindNothingWithoutI(t, |pre| + 16);
    }
  }

  /** The as-written case on `x;\n` followed by the import. */
  lemma StripAsWrittenKeepsImportAfterShortLine(ops: PathOps)
    ensures StripIterate(ops, Scan("x;\n" + LastLineImport, 0, []), 2).None?
    ensures StripIterate(ops, Scan("x;\n" + LastLineImport, 0, []), 1)
         == Some(Scan("x;\nx;\n" + LastLineImport, 19, [Normalize(ops, "", "a.less")]))
  {
    assert "x;\n" + "x;\n" == "x;\nx;\n";
    StripAsWrittenKeepsLastLineImport(ops, "x;\n");
  }

  /** A turn of the corrected loop, once the match it finds is known. */
  lemma StripFromFound(ops: PathOps, content: string, lastIndex: nat, paths: seq<string>, m: Found)
    requires FindLessImport(content, lastIndex) == Some(m)
    ensures StripFrom(ops, content, lastIndex, paths)
         == StripFrom(ops, RemoveImportLine(content, m.index), m.end, paths + [ImportedPath(ops, content, m)])
  {
  }

  /** The corrected loop removes a last-line import without `\n` and keeps all the text before it,
      however long. */
  lemma StripRemovesLastLineImport(ops: PathOps, pre: string)
    requires forall q :: 0 <= q < |pre| ==> pre[q] != 'i'
    ensures StripFrom(ops, pre + LastLineImport, 0, []) == (pre, [Normalize(ops, "", "a.less")])
  {
    var s := pre + LastLineImport;
    var m := Found(|pre|, |pre| + 16);
    assert FindLessImport(s, 0) == Some(m) by {
      FindAfterPrefix(pre);
    }
    var a := [Normalize(ops, "", "a.less")];
    assert ImportedPath(ops, s, m) == a[0] by {
      FindAfterPrefix(pre);
    }
    assert StripFrom(ops, s, 0, []) == StripFrom(ops, RemoveImportLine(s, |pre|), |pre| + 16, a) by {
      StripFromFound(ops, s, 0, [], m);
      assert [] + a == a;
    }
    assert RemoveImportLine(s, |pre|) == pre by {
      NoNewlineInImport(pre);
      RemoveImportLineCuts(s, |pre|);
      assert s[..|pre|] == pre;
    }
    assert StripFrom(ops, pre, |pre| + 16, a) == (pre, a) by {
      assert FindLessImport(pre, |pre| + 16).None?;
    }
  }

  /** The first match of the import followed by a line break and any text. */
  lemma FindImportBeforeNewline(next: string)
    ensures var s := LastLineImport + "\n" + next;
      && FindLessImport(s, 0) == Some(Found(0, 16))
      && CapturedPath(s, Found(0, 16)) == "a.less"
      && RemoveLine(s, 0) == next && RemoveImportLine(s, 0) == next
  {
    var s := LastLineImport + "\n" + next;
    assert LessImportEnd(s, 0) == Some(16) && CapturedPath(s, Found(0, 16)) == "a.less" by {
      ImportMatches("", "\n" + next);
      assert "" + LastLineImport + ("\n" + next) == s;
    }
    assert FindLessImport(s, 0) == Some(Found(0, 16)) by {
      FindLessImportAt(s, 0, 0);
    }
    assert RemoveLine(s, 0) == next && RemoveImportLine(s, 0) == next by {
      ImportHasNoNewline();
      RemoveFirstLine(LastLineImport, next);
    }
  }

  /** Removing a first line that ends in a line break leaves the text after it. */
  lemma RemoveFirstLine(line: string, next: string)
    requires '\n' !in line
    ensures RemoveLine(line + "\n" + next, 0) == next && RemoveImportLine(line + "\n" + next, 0) == next
  {
    var s := line + "\n" + next;
    assert s[|line| + 1..] == next;
    forall k | 0 <= k < |line| ensures s[k] != '\n' {
      assert s[k] == line[k];
    }
    assert s[|line|] == '\n';
  }

  /** `lastIndex` is left at the end of a match although the match's line is gone, so the first
      16 characters of the next line are not searched: an import there is skipped, by the loop
      as written and by the corrected one alike. */
  lemma StripSkipsNextLine(ops: PathOps, next: string)
    requires forall q :: 16 <= q < |next| ==> next[q] != 'i'
    ensures StripFrom(ops, LastLineImport + "\n" + next, 0, []) == (next, [Normalize(ops, "", "a.less")])
    ensures StripIterate(ops, Scan(LastLineImport + "\n" + next, 0, []), 1)
         == Some(Scan(next, 16, [Normalize(ops, "", "a.less")]))
    ensures StripIterate(ops, Scan(LastLineImport + "\n" + next, 0, []), 2).None?
  {
    var s := LastLineImport + "\n" + next;
    var m := Found(0, 16);
    var a := [Normalize(ops, "", "a.less")];
    assert FindLessImport(s, 0) == Some(m) && ImportedPath(ops, s, m) == a[0]
        && RemoveLine(s, 0) == next && RemoveImportLine(s, 0) == next by {
      FindImportBeforeNewline(next);
    }
    assert FindLessImport(next, 16).None? by {
      FindNothingWithoutI(next, 16);
    }
    assert StripStep(ops, Scan(s, 0, [])) == Some(Scan(next, 16, a)) by {
      StripStepFound(ops, Scan(s, 0, []), m);
      assert [] + a == a;
    }
    assert StripFrom(ops, s, 0, []) == StripFrom(ops, next, 16, a) by {
      StripFromFound(ops, s, 0, [], m);
      assert [] + a == a;
    }
  }

  /** The skip on `import 'a.less';` followed by `import 'b.less';` on the next line. */
  lemma StripSkipsImportOnNextLine(ops: PathOps)
    ensures StripFrom(ops, LastLineImport + "\n" + "import 'b.less';\n", 0, [])
         == ("import 'b.less';\n", [Normalize(ops, "", "a.less")])
  {
    var b := "import 'b.less';\n";
    assert b[16] == '\n';
    StripSkipsNextLine(ops, b);
  }

  /** From a pumping state, every number of turns leads to a pumping state. */
  lemma LoopKeepsFinding(ops: PathOps, st: Scan, k: nat)
    requires Pumping(st)
    ensures StripIterate(ops, st, k).Some? && Pumping(StripIterate(ops, st, k).value)
  {
    var step := x => StripStep(ops, x);
    forall x | Pumping(x) ensures step(x).Some? && Pumping(step(x).value) {
      StripStepRepeats(ops, x);
    }
    IterateKeeps(step, x => Pumping(x), st, k);
  }

  /** A property every turn of a loop keeps, and that lets every turn go on, holds after any
      number of turns. */
  lemma {:induction false} IterateKeeps<S>(step: S -> Option<S>, inv: S -> bool, st: S, k: nat)
    requires inv(st)
    requires forall x :: inv(x) ==> step(x).Some? && inv(step(x).value)
    ensures Iterate(step, st, k).Some? && inv(Iterate(step, st, k).value)
  {
    if k > 0 {
      IterateKeeps(step, inv, st, k - 1);
    }
  }

  /** The intended line removal: as `RemoveLine`, except that a last line without `\n` is
      removed up to the end of the text. */
  function RemoveImportLine(content: string, index: nat): (r: string)
    requires index < |content|
    ensures index <= |r| < |content| && r[..index] == content[..index]
  {
    if IndexOf(content, '\n', index) == -1 then content[..index] else RemoveLine(content, index)
  }

  /** `RemoveImportLine` cuts exactly one line: from `index` through the next `\n`, or through
      the end of the text when no `\n` follows. */
  lemma RemoveImportLineCuts(content: string, index: nat)
    requires index < |content|
    ensures var nl := IndexOf(content, '\n', index);
      var r := RemoveImportLine(content, index);
      && (nl >= 0 ==> IsLine(content[index..nl + 1]) && r == content[..index] + content[nl + 1..])
      && (nl == -1 ==> '\n' !in content[index..] && r == content[..index])
  {
    if IndexOf(content, '\n', index) == -1 {
      assert forall k :: 0 <= k < |content[index..]| ==> content[index..][k] == content[index + k];
    } else {
      RemoveLineCutsOneLine(content, index);
    }
  }

  /** The result of the corrected loop from a given state: the remaining text and the paths. */
  function StripFrom(ops: PathOps, content: string, lastIndex: nat, paths: seq<string>): (string, seq<string>)
    decreases |content| - lastIndex
  {
    match FindLessImport(content, lastIndex)
    case None => (content, paths)
    case Some(m) =>
      StripFrom(ops, RemoveImportLine(content, m.index), m.end, paths + [ImportedPath(ops, content, m)])
  }

  /** `utils.stripLessImports(content)`, with the corrected line removal: every turn removes at
      least one character, so the loop ends. */
  method StripLessImports(ops: PathOps, content: string) returns (stripped: string, paths: seq<string>)
    ensures (stripped, paths) == StripFrom(ops, content, 0, [])
    ensures |stripped| + |paths| <= |content|
    ensures paths == [] <==> FindLessImport(content, 0).None?
    ensures paths == [] ==> stripped == content
  {
    stripped, paths := content, [];
    var lastIndex: nat := 0;
    while true
      invariant StripFrom(ops, stripped, lastIndex, paths) == StripFrom(ops, content, 0, [])
      invariant |stripped| + |paths| <= |content|
      invariant paths == [] ==> stripped == content && lastIndex == 0
      decreases |stripped| - lastIndex
    {
      var m := FindLessImport(stripped, lastIndex);
      if m.None? {
        break;
      }
      paths := paths + [ImportedPath(ops, stripped, m.value)];
      stripped := RemoveImportLine(stripped, m.value.index);
      lastIndex := m.value.end;
    }
  }

  /** Every turn records one path and removes at least one character, so the recorded paths
      only grow and never outnumber the removed characters. */
  lemma {:induction false} StripFromGrowsPaths(ops: PathOps, content: string, lastIndex: nat, paths: seq<string>)
    requires lastIndex <= |content|
    ensures var r := StripFrom(ops, content, lastIndex, paths);
      paths <= r.1 && |r.0| + (|r.1| - |paths|) <= |content|
    decreases |content| - lastIndex
  {
    match FindLessImport(content, lastIndex)
    case None =>
    case Some(m) =>
      var next := RemoveImportLine(content, m.index);
      var ps := paths + [ImportedPath(ops, content, m)];
      if m.end <= |next| {
        StripFromGrowsPaths(ops, next, m.end, ps);
      } else {
        assert FindLessImport(next, m.end).None?;
      }
  }

  /** The text before `lastIndex` is never touched. */
  lemma {:induction false} StripFromKeepsPrefix(ops: PathOps, content: string, lastIndex: nat, paths: seq<string>)
    requires lastIndex <= |content|
    ensures var r := StripFrom(ops, content, lastIndex, paths);
      lastIndex <= |r.0| && r.0[..lastIndex] == content[..lastIndex]
    decreases |content| - lastIndex
  {
    match FindLessImport(content, lastIndex)
    case None =>
    case Some(m) =>
      var next := RemoveImportLine(content, m.index);
      var ps := paths + [ImportedPath(ops, content, m)];
      if m.end <= |next| {
        StripFromKeepsPrefix(ops, next, m.end, ps);
        PrefixChain(content, next, StripFrom(ops, next, m.end, ps).0, lastIndex, m.index, m.end);
      } else {
        assert FindLessImport(next, m.end).None?;
      }
  }

  /** Agreeing on a longer prefix means agreeing on a shorter one. */
  lemma PrefixChain(a: string, b: string, c: string, i: nat, j: nat, k: nat)
    requires i <= j <= k <= |c| && j <= |a| && k <= |b|
    requires b[..j] == a[..j] && c[..k] == b[..k]
    ensures c[..i] == a[..i]
  {
    assert c[..i] == c[..k][..i];
    assert b[..i] == b[..k][..i];
    assert b[..i] == b[..j][..i];
    assert a[..i] == a[..j][..i];
  }

  /** No path is recorded exactly when no import is found, and then the text is unchanged. */
  lemma {:induction false} StripFromFindsNothing(ops: PathOps, content: string, lastIndex: nat, paths: seq<string>)
    requires lastIndex <= |content|
    ensures var r := StripFrom(ops, content, lastIndex, paths);
      && (r.1 == paths <==> FindLessImport(content, lastIndex).None?)
      && (r.1 == paths ==> r.0 == content)
  {
    match FindLessImport(content, lastIndex)
    case None =>
    case Some(m) =>
      var next := RemoveImportLine(content, m.index);
      var ps := paths + [ImportedPath(ops, content, m)];
      if m.end <= |next| {
        StripFromGrowsPaths(ops, next, m.end, ps);
      } else {
        assert FindLessImport(next, m.end).None?;
      }
  }

  /** The text after the line that starts at `index`: empty when that line has no `\n`. */
  function AfterLine(content: string, index: nat): (r: string)
    requires index <= |content|
    ensures |r| <= |content| - index
  {
    var nl := IndexOf(content, '\n', index);
    if nl == -1 then [] else content[nl + 1..]
  }

  /** The next path recorded is that of the leftmost import from `lastIndex`, and the text
      before that import survives. */
  lemma StripFirstImport(ops: PathOps, content: string, lastIndex: nat, paths: seq<string>)
    requires lastIndex <= |content| && FindLessImport(content, lastIndex).Some?
    ensures var m := FindLessImport(content, lastIndex).value;
      var r := StripFrom(ops, content, lastIndex, paths);
      && |r.1| > |paths| && r.1[|paths|] == ImportedPath(ops, content, m)
      && m.index <= |r.0| && r.0[..m.index] == content[..m.index]
  {
    var m := FindLessImport(content, lastIndex).value;
    var next := RemoveImportLine(content, m.index);
    var ps := paths + [ImportedPath(ops, content, m)];
    var r := StripFrom(ops, next, m.end, ps);
    assert StripFrom(ops, content, lastIndex, paths) == r;
    if m.end <= |next| {
      StripFromGrowsPaths(ops, next, m.end, ps);
      StripFromKeepsPrefix(ops, next, m.end, ps);
      PrefixChain(content, next, r.0, m.index, m.index, m.end);
      PrefixAt(ps, r.1, |paths|);
    } else {
      assert FindLessImport(next, m.end).None?;
    }
  }

  /** One turn of the corrected loop removes exactly the line of the leftmost import (through
      its `\n`, or through the end of the text when it is the last line), records its path, and
      searches on from the match's end. */
  lemma StripFirstImportLine(ops: PathOps, content: string, lastIndex: nat, paths: seq<string>, m: Found)
    requires FindLessImport(content, lastIndex) == Some(m)
    ensures StripFrom(ops, content, lastIndex, paths)
         == StripFrom(ops, content[..m.index] + AfterLine(content, m.index), m.end, paths + [ImportedPath(ops, content, m)])
  {
    StripFromFound(ops, content, lastIndex, paths, m);
    RemoveImportLineSplit(content, m.index);
  }

  /** The whole run of the corrected loop, seen from its first match: the text after the removed
      line moves up to the import's offset, and as much of it as the match was long stays there. */
  lemma StripKeepsAfterLine(ops: PathOps, content: string, lastIndex: nat, paths: seq<string>, m: Found)
    requires FindLessImport(content, lastIndex) == Some(m)
    ensures var rest := AfterLine(content, m.index);
      Lit(StripFrom(ops, content, lastIndex, paths).0, m.index, rest[..Min(|rest|, m.end - m.index)])
  {
    StripFirstImportLine(ops, content, lastIndex, paths, m);
    KeepsAfter(ops, content, lastIndex, paths, content[..m.index], AfterLine(content, m.index), m.end,
      paths + [ImportedPath(ops, content, m)]);
  }

  /** `StripFromAfter`, carried over to a run of the loop known to continue as one from `k`. */
  lemma KeepsAfter(ops: PathOps, content: string, lastIndex: nat, paths: seq<string>,
                   a: string, rest: string, k: nat, ps: seq<string>)
    requires |a| <= k && StripFrom(ops, content, lastIndex, paths) == StripFrom(ops, a + rest, k, ps)
    ensures Lit(StripFrom(ops, content, lastIndex, paths).0, |a|, rest[..Min(|rest|, k - |a|)])
  {
    StripFromAfter(ops, a, rest, k, ps);
  }

  /** `RemoveImportLine` keeps the text before `index` and the text after its line. */
  lemma RemoveImportLineSplit(content: string, index: nat)
    requires index < |content|
    ensures RemoveImportLine(content, index) == content[..index] + AfterLine(content, index)
  {
    RemoveImportLineCuts(content, index);
  }

  /** Searching on from `k`, the corrected loop leaves in place the part of `rest` before `k`: after
      a turn removed a line, the text that followed it stays put for as long as the match was. */
  lemma StripFromAfter(ops: PathOps, a: string, rest: string, k: nat, paths: seq<string>)
    requires |a| <= k
    ensures Lit(StripFrom(ops, a + rest, k, paths).0, |a|, rest[..Min(|rest|, k - |a|)])
  {
    var s := a + rest;
    if k <= |s| {
      StripFromKeepsPrefix(ops, s, k, paths);
      KeptBefore(a, rest, StripFrom(ops, s, k, paths).0, k);
    } else {
      assert FindLessImport(s, k).None?;
      assert s[|a|..|a| + |rest|] == rest == rest[..|rest|];
      LitIsSlice(s, |a|, rest);
    }
  }

  function Min(x: nat, y: nat): nat {
    if x < y then x else y
  }

  /** When a text agrees with `a + rest` up to `k`, the part of `rest` before `k` follows `a`
      in it. */
  lemma KeptBefore(a: string, rest: string, t: string, k: nat)
    requires |a| <= k <= |a + rest| && k <= |t| && t[..k] == (a + rest)[..k]
    ensures Lit(t, |a|, rest[..Min(|rest|, k - |a|)])
  {
    var w := rest[..k - |a|];
    assert t[|a|..k] == t[..k][|a|..];
    assert (a + rest)[..k][|a|..] == w;
    LitIsSlice(t, |a|, w);
  }


  lemma PrefixAt(a: seq<string>, b: seq<string>, i: nat)
    requires a <= b && i < |a|
    ensures i < |b| && b[i] == a[i]
  {
  }

  // ---------------------------------------------------------------------------------------
  // Appending @import lines to a theme

  /** One turn of `utils.addLessImportsToTheme`: the non-reference `@import` line for `path` is
      appended unless the text already includes it. */
  function AddImport(ops: PathOps, content: string, dir: string, path: string): (r: string)
    ensures content <= r
    ensures Includes(r, BuildLessImport(ops, dir, path, false))
  {
    var add := BuildLessImport(ops, dir, path, false);
    if Includes(content, add) then content
    else
      IncludesSuffix(content, add);
      content + add
  }

  /** `paths.forEach` over `AddImport`, from the first path to the last. */
  function AddImports(ops: PathOps, content: string, dir: string, paths: seq<string>): string
    decreases |paths|
  {
    if paths == [] then content
    else AddImports(ops, AddImport(ops, content, dir, paths[0]), dir, paths[1..])
  }

  /** The paths whose `@import` line differs from that of `p`, in order. */
  function OtherLines(ops: PathOps, dir: string, paths: seq<string>, p: string): (r: seq<string>)
    ensures |r| <= |paths|
    ensures forall q :: q in r ==> q in paths && BuildLessImport(ops, dir, q, false) != BuildLessImport(ops, dir, p, false)
    decreases |paths|
  {
    if paths == [] then []
    else
      (if BuildLessImport(ops, dir, paths[0], false) == BuildLessImport(ops, dir, p, false) then [] else [paths[0]])
      + OtherLines(ops, dir, paths[1..], p)
  }

  /** `utils.addLessImportsToTheme(content, dir, paths)`. Besides the contents, a path whose line
      the text already includes contributes nothing: the result is that of the other paths. */
  method AddLessImportsToTheme(ops: PathOps, content: string, dir: string, paths: seq<string>) returns (r: string)
    ensures r == AddImports(ops, content, dir, paths)
    ensures content <= r
    ensures forall i :: 0 <= i < |paths| ==> Includes(r, BuildLessImport(ops, dir, paths[i], false))
    ensures forall p :: Includes(content, BuildLessImport(ops, dir, p, false)) ==>
      r == AddImports(ops, content, dir, OtherLines(ops, dir, paths, p))
  {
    r := content;
    var i := 0;
    while i < |paths|
      invariant i <= |paths|
      invariant AddImports(ops, r, dir, paths[i..]) == AddImports(ops, content, dir, paths)
      invariant content <= r
      invariant forall j :: 0 <= j < i ==> Includes(r, BuildLessImport(ops, dir, paths[j], false))
    {
      var add := BuildLessImport(ops, dir, paths[i], false);
      assert paths[i..][1..] == paths[i + 1..];
      if !Includes(r, add) {
        forall j | 0 <= j < i ensures Includes(r + add, BuildLessImport(ops, dir, paths[j], false)) {
          IncludesAppend(r, BuildLessImport(ops, dir, paths[j], false), add);
        }
        IncludesSuffix(r, add);
        r := r + add;
      }
      i := i + 1;
    }
    assert paths[i..] == [];
    forall p | Includes(content, BuildLessImport(ops, dir, p, false))
      ensures r == AddImports(ops, content, dir, OtherLines(ops, dir, paths, p))
    {
      AddImportsSkipsPresent(ops, content, dir, paths, p);
    }
  }

  /** The text only grows: what was there stays in front. */
  lemma {:induction false} AddImportsGrows(ops: PathOps, content: string, dir: string, paths: seq<string>)
    ensures content <= AddImports(ops, content, dir, paths)
    decreases |paths|
  {
    if paths != [] {
      AddImportsGrows(ops, AddImport(ops, content, dir, paths[0]), dir, paths[1..]);
    }
  }

  /** Afterwards the text includes the line of every path. */
  lemma {:induction false} AddImportsIncludesAll(ops: PathOps, content: string, dir: string, paths: seq<string>)
    ensures forall i :: 0 <= i < |paths| ==>
      Includes(AddImports(ops, content, dir, paths), BuildLessImport(ops, dir, paths[i], false))
    decreases |paths|
  {
    if paths != [] {
      var next := AddImport(ops, content, dir, paths[0]);
      var r := AddImports(ops, next, dir, paths[1..]);
      AddImportsIncludesAll(ops, next, dir, paths[1..]);
      AddImportsGrows(ops, next, dir, paths[1..]);
      IncludesPrefix(next, r, BuildLessImport(ops, dir, paths[0], false));
      forall i | 1 <= i < |paths|
        ensures Includes(r, BuildLessImport(ops, dir, paths[i], false))
      {
        assert paths[i] == paths[1..][i - 1];
      }
    }
  }

  /** A line already in the text is never added again: when all are present, nothing changes. */
  lemma {:induction false} AddImportsAllPresent(ops: PathOps, content: string, dir: string, paths: seq<string>)
    requires forall i :: 0 <= i < |paths| ==> Includes(content, BuildLessImport(ops, dir, paths[i], false))
    ensures AddImports(ops, content, dir, paths) == content
    decreases |paths|
  {
    if paths != [] {
      assert Includes(content, BuildLessImport(ops, dir, paths[0], false));
      forall i | 0 <= i < |paths[1..]|
        ensures Includes(content, BuildLessImport(ops, dir, paths[1..][i], false))
      {
        assert paths[1..][i] == paths[i + 1];
      }
      AddImportsAllPresent(ops, content, dir, paths[1..]);
    }
  }

  /** A line the text already includes is never appended again: the paths with that line
      contribute nothing, wherever they stand in the list. */
  lemma {:induction false} AddImportsSkipsPresent(ops: PathOps, content: string, dir: string, paths: seq<string>, p: string)
    requires Includes(content, BuildLessImport(ops, dir, p, false))
    ensures AddImports(ops, content, dir, paths) == AddImports(ops, content, dir, OtherLines(ops, dir, paths, p))
    decreases |paths|
  {
    if paths != [] {
      var next := AddImport(ops, content, dir, paths[0]);
      var rest := OtherLines(ops, dir, paths[1..], p);
      IncludesPrefix(content, next, BuildLessImport(ops, dir, p, false));
      AddImportsSkipsPresent(ops, next, dir, paths[1..], p);
      if BuildLessImport(ops, dir, paths[0], false) == BuildLessImport(ops, dir, p, false) {
        assert next == content;
        assert OtherLines(ops, dir, paths, p) == rest;
      } else {
        assert OtherLines(ops, dir, paths, p) == [paths[0]] + rest;
        assert ([paths[0]] + rest)[1..] == rest;
      }
    }
  }

  /** Adding the same imports twice is adding them once. */
  lemma AddImportsIdempotent(ops: PathOps, content: string, dir: string, paths: seq<string>)
    ensures AddImports(ops, AddImports(ops, content, dir, paths), dir, paths) == AddImports(ops, content, dir, paths)
  {
    AddImportsIncludesAll(ops, content, dir, paths);
    AddImportsAllPresent(ops, AddImports(ops, content, dir, paths), dir, paths);
  }

  // ---------------------------------------------------------------------------------------
  // Temp files

  /** A theme file as recorded by `processOptionsThemes`: its path and whether it is imported by
      reference. */
  datatype FileRef = FileRef(path: string, isReference: bool)

  /** An element of the array `utils.buildTempFiles` returns: the theme record spread out
      (`files`), with the `location` and `dir` it was given and the generated `content`. */
  datatype TempFile = TempFile(location: string, dir: string, files: seq<FileRef>, content: string)

  /** `theme.files.map((file) => utils.buildLessImport(dir, file.path, file.isReference))`. */
  function ImportLines(ops: PathOps, dir: string, files: seq<FileRef>): (lines: seq<string>)
    ensures |lines| == |files|
  {
    seq(|files|, k requires 0 <= k < |files| => BuildLessImport(ops, dir, files[k].path, files[k].isReference))
  }

  /** The temp file of one theme: `<dir>/<name>.less`, its directory, and the `@import` lines of
      its files joined together. */
  function TempFileOf(ops: PathOps, dir: string, name: string, files: seq<FileRef>): TempFile {
    var location := ops.resolve(dir, name + ".less");
    TempFile(location, ops.dirname(location), files, Concat(ImportLines(ops, dir, files)))
  }

  /** `utils.buildTempFiles(dir, themes)`, with `Object.keys(themes)` given as the order of the
      entries: one temp file per theme, in order, at `<dir>/<name>.less`, keeping the theme's
      files, and whose content reads back as one `@import` line per file, in order. */
  function BuildTempFiles(ops: PathOps, dir: string, themes: seq<(string, seq<FileRef>)>): (r: seq<TempFile>)
    ensures |r| == |themes|
    ensures forall i :: 0 <= i < |themes| ==>
      && r[i].location == ops.resolve(dir, themes[i].0 + ".less")
      && r[i].dir == ops.dirname(r[i].location)
      && r[i].files == themes[i].1
    ensures forall i :: 0 <= i < |themes| && NoNewlines(ops, dir, themes[i].1) ==>
      ReadsBack(ops, dir, themes[i].1, r[i].content)
  {
    var r := seq(|themes|, i requires 0 <= i < |themes| => TempFileOf(ops, dir, themes[i].0, themes[i].1));
    assert forall i :: 0 <= i < |themes| && NoNewlines(ops, dir, themes[i].1) ==>
      ReadsBack(ops, dir, themes[i].1, r[i].content) by {
      forall i | 0 <= i < |themes| && NoNewlines(ops, dir, themes[i].1)
        ensures ReadsBack(ops, dir, themes[i].1, r[i].content)
      {
        TempFileContentReadsBack(ops, dir, themes[i].0, themes[i].1);
      }
    }
    r
  }

  /** No normalised path of `files` holds a `\n`. */
  predicate NoNewlines(ops: PathOps, dir: string, files: seq<FileRef>) {
    forall k :: 0 <= k < |files| ==> '\n' !in Normalize(ops, dir, files[k].path)
  }

  /** `content` holds exactly one `@import` line per file, in order, each with the file's reference
      flag and its path normalised against `dir`. */
  predicate ReadsBack(ops: PathOps, dir: string, files: seq<FileRef>, content: string) {
    var parsed := ParseImports(content);
    && |parsed| == |files|
    && forall k :: 0 <= k < |files| ==> parsed[k] == Some((files[k].isReference, Normalize(ops, dir, files[k].path)))
  }

  /** Reads every line of a text with `ParseLessImport`. */
  function ParseImports(content: string): (r: seq<Option<(bool, string)>>)
    ensures |r| == |SplitLines(content)|
  {
    var lines := SplitLines(content);
    seq(|lines|, k requires 0 <= k < |lines| => ParseLessImport(lines[k]))
  }

  /** The content of a temp file holds exactly one `@import` line per file, in order, each with the
      file's reference flag and its path normalised against `dir`; this needs the normalised paths
      to have no `\n`. */
  lemma TempFileContentReadsBack(ops: PathOps, dir: string, name: string, files: seq<FileRef>)
    requires NoNewlines(ops, dir, files)
    ensures ReadsBack(ops, dir, files, TempFileOf(ops, dir, name, files).content)
  {
    var lines := ImportLines(ops, dir, files);
    forall k | 0 <= k < |lines| ensures IsLine(lines[k]) && ParseLessImport(lines[k]) == Some((files[k].isReference, Normalize(ops, dir, files[k].path))) {
      BuildLessImportParses(ops, dir, files[k].path, files[k].isReference);
    }
    ParseLines(lines);
  }

  /** Whole lines glued together are read back one by one. */
  lemma ParseLines(lines: seq<string>)
    requires forall k :: 0 <= k < |lines| ==> IsLine(lines[k])
    ensures |ParseImports(Concat(lines))| == |lines|
    ensures forall k :: 0 <= k < |lines| ==> ParseImports(Concat(lines))[k] == ParseLessImport(lines[k])
  {
    SplitConcatLines(lines);
  }
}

=== FILE: wrappers.dfy ===
/** Optional values and results that may carry an error, for JavaScript's `null`/`undefined`
    and thrown exceptions. */
module Wrappers {

  datatype Option<+T> = None | Some(value: T)

  datatype Result<+T, +E> = Ok(value: T) | Err(error: E)
}
